=== FILE: README.md ===
# QuizMaker core in Dafny

A model of the in-memory core of QuizMaker, a quiz authoring and grading program. The model covers:

- **Questions**: the Multiple-Choice, True/False and Short-Answer variants. It models their answer-checking rule (`checkAnswer`), validity rule (`isValid`), option lists, `clone`, and the True/False answer normaliser.
- **Quiz**: an ordered list of questions plus settings. It models the guarded setters, the index-guarded editing operations, totals and passing marks, counts by type, validation and its error list, `clone`, and the time helpers.
- **Result**: one student's attempt at a quiz. It models the snapshot taken at the start, recorded answers, `calculateResult` (marks, percentage, pass verdict), answer counts, letter grade, validity and `formatTime`.
- **Validator**: the static input rules. It models length and range checks, option-list checks, whole-question and whole-quiz validation with their problem lists, True/False answer tokens, and `sanitizeInput`.

Every operation is a pure function. A Java mutator becomes a function that returns the new value. Where the Java method also reports success (a `boolean` or a removed element), the function returns a pair.

| file | module | contents |
|---|---|---|
| `java_lang.dfy` | `JavaLang` | `Nullable<T>` for Java references that may be null; truncating `Div` and `Rem` |
| `text.dfy` | `Text` | `String.trim`, ASCII case mapping, `equalsIgnoreCase`, the regex class `\s`, decimal formatting |
| `questions.dfy` | `Questions` | the question datatype and its rules |
| `quiz.dfy` | `Quizzes` | the quiz record and its operations |
| `result.dfy` | `Results` | attempts and grading |
| `validator.dfy` | `Validator` | the validation rules; problems are a datatype with one constructor per message |

Conventions:

- Java `int` is an unbounded `int`.
- Java `double` is an exact `real`.
- Integer `/` and `%` truncate toward zero, as in Java (`JavaLang.Div`, `JavaLang.Rem`).
- `trim` strips characters at or below U+0020.
- `length` counts UTF-16 code units, so a character above U+FFFF counts twice.
- Case mapping touches only ASCII letters.

Two places where the code's own rules do not agree:

- **Multiple-Choice matching.** `isValid` (Questions.java:241-244) checks `options.contains(correctAnswer)`, which is exact. `validateQuestion` (Validator.java:394-407) accepts an answer that matches an option once both are trimmed, ignoring case. `Validator.ChoiceMatchingDiffers` exhibits a question that passes validation but that `Quiz.addQuestion` refuses.
- **True/False answers.** `normalizeAnswer` (Questions.java:287-297) reads every string other than "true", "t" and "1" (trimmed, ignoring case) as "False". This includes strings that `isValidTrueFalseAnswer` rejects (`Validator.UnrecognisedAnswerGradesAsFalse`).

## Model

| member | source | states |
|---|---|---|
| Questions.NormalizeAnswer | Questions.java:287-297 | the normaliser only ever yields "True" or "False" |
| Questions.NormalizesToTrue | Questions.java:287-297 | "true", "True", "T" and "1" normalise to "True" |
| Questions.FalseWordNormalizes | Questions.java:287-297 | "false" normalises to "False" |
| Questions.NormalizeFixesLabels | Questions.java:287-297 | the normaliser maps "True" to "True" and "False" to "False" |
| Questions.NormalizeIdempotent | Questions.java:287-297 | normalising twice is normalising once |
| Questions.NewTrueFalse | Questions.java:274-280 | the True/False constructor keeps text and marks, normalises a non-null answer, keeps a null one, and always stores null, "True" or "False" |
| Questions.TrueFalseTrueTokens | Questions.java:274-280 | built from "true", "True", "T" or "1", a question stores "True" and grades "false" wrong |
| Questions.SetQuestionText | Questions.java:56-58 | `setQuestionText`: the text plays no part in answer checking; a null or blank text makes the question invalid; swapping one non-blank text for another keeps validity |
| Questions.SetMarks | Questions.java:72-78 | the marks become positive: a positive value is kept, anything else becomes 1; nothing else changes |
| Questions.SetCorrectAnswer | Questions.java:333-335 | True/False normalises (null becomes "True"); the other variants store the answer as given; the stored answer stays normalised |
| Questions.SetOptions | Questions.java:182-192 | `getOptions` after `setOptions` returns the list set; answer checking is unaffected; the question is then valid exactly when the base rule holds and the list has two entries, one of them exactly the answer |
| Questions.AddOption | Questions.java:198-202 | appends a non-null, non-blank option; a null or blank one leaves the question unchanged |
| Questions.RemoveOption | Questions.java:208-210 | removes the first option equal to the argument, keeping the others in order; an absent or null option changes nothing |
| Questions.SetCaseSensitive | Questions.java:384-386 | validity does not depend on the flag; every accepted answer is also accepted ignoring case; turning the flag off accepts every answer the case-sensitive form accepted |
| Questions.QuestionTypeIdentifiesVariant | Questions.java:213-215 | `getQuestionType`: each type label names exactly one variant |
| Questions.MultipleChoiceGrading | Questions.java:218-223 | Multiple-Choice grading: non-null answers whose trimmed forms agree up to case; the option list plays no part |
| Questions.AcceptsCorrectAnswerAndCaseVariants | Questions.java:394-407 | Multiple-Choice and Short-Answer questions accept their own answer, and its upper- and lower-cased forms when matching ignores case; the empty answer is rejected unless the stored answer is blank |
| Questions.CaseSensitiveMatchImpliesInsensitive | Questions.java:394-407 | a case-sensitive Short-Answer match is also a case-insensitive one |
| Questions.TrueFalseGrading | Questions.java:305-311 | True/False grading compares normalised forms; against a stored "False", every answer not read as true is correct |
| Questions.TrueFalseExactlyOneOptionCorrect | Questions.java:314-319 | the options are ["True", "False"] and exactly one of them is graded correct |
| Questions.TrueFalseValidityIsBase | Questions.java:338-341 | for a normalised True/False question, the extra label check adds nothing to the base validity rule |
| Questions.ValidQuestionFacts | Questions.java:127-131 | a valid question has text, an answer and positive marks; a valid Multiple-Choice question offers its answer; every valid question accepts its own answer |
| Questions.Clone | Questions.java:344-346 | a clone keeps text, marks, options, type and flag; a True/False clone stores the normalised form of a non-null answer (null stays null); the other variants keep the answer; equals the original when that is already normalised |
| Questions.CloneOfValid | Questions.java:247-250 | cloning a valid question gives the same question; cloning is idempotent |
| Questions.CloneOfBlankTrueFalse | Questions.java:264-266 | the no-argument True/False question stores "", and its clone stores "False", so the copy differs from the original |
| Questions.CheckAnswer | Questions.java:218-223 | `checkAnswer`: an accepted answer is never null, and neither is the stored answer it matched |
| Questions.IsValid | Questions.java:241-244 | `isValid` includes the base rule; a valid Multiple-Choice or True/False question lists its own answer among at least two `getOptions` entries |
| Quizzes.NewQuiz | Quiz.java:34-45 | the default quiz: "Untitled Quiz", no questions, no time limit, active, pass at 50% |
| Quizzes.NewTitledQuiz | Quiz.java:52-56 | field by field: the given id, title and description stored unchecked; author "Anonymous", no time limit, active, no questions, 50% to pass; well-formed |
| Quizzes.NewFullQuiz | Quiz.java:65-71 | field by field: the given id, title, description, author and time limit stored unchecked; active, no questions, 50% to pass; with the default author and no limit it is the two-argument quiz |
| Quizzes.SetTitle | Quiz.java:83-88 | a null or blank title is ignored; otherwise only the title changes |
| Quizzes.SetTimeLimit | Quiz.java:119-124 | a negative limit is ignored; otherwise only the limit changes |
| Quizzes.SetPassingPercentage | Quiz.java:139-144 | a value outside [0, 100] is ignored, so a well-formed quiz stays well-formed |
| Quizzes.QuizIdIsStable | Quiz.java:75-77 | `getQuizId` returns the id set by the constructor, and no setter or question edit changes it |
| Quizzes.GetQuestion | Quiz.java:159-164 | the question at an in-range index, null otherwise |
| Quizzes.AddQuestion | Quiz.java:173-182 | appends exactly when the question is non-null and valid; otherwise the quiz is unchanged |
| Quizzes.AddQuestionAt | Quiz.java:190-197 | inserts at `index` when the question is valid and 0 <= index <= size, shifting later questions; otherwise unchanged |
| Quizzes.RemoveQuestionAt | Quiz.java:217-224 | removes and returns the question at an in-range index, shifting later ones; null and unchanged otherwise |
| Quizzes.UpdateQuestion | Quiz.java:232-239 | replaces the question at an in-range index by a valid one and touches no other index |
| Quizzes.ClearQuestions | Quiz.java:244-247 | empties the list and keeps the settings |
| Quizzes.Shuffle | Quiz.java:268-271 | a reordering keeps the multiset of questions, the total, the per-type counts and validity |
| Quizzes.SumOfPermutation | Quiz.java:279-285 | the looped sum does not depend on the order of the questions |
| Quizzes.TotalMarksAppend | Quiz.java:279-285 | `getTotalMarks`: totals add over concatenation |
| Quizzes.TotalMarksBounds | Quiz.java:279-285 | positive marks give a positive total for a non-empty list |
| Quizzes.TotalMarksAfterEdits | Quiz.java:173-247 | after each edit the total moves by exactly the marks added or removed; clearing gives 0 |
| Quizzes.PassingMarks | Quiz.java:291-293 | the passing marks are the ceiling of total × percentage / 100 |
| Quizzes.PassingMarksBounds | Quiz.java:291-293 | with a percentage in [0, 100], the passing marks lie between 0 and the total |
| Quizzes.CountQuestionsByType | Quiz.java:313-321 | the count is the number of positions whose question has the type, ignoring case; it equals the length of `getQuestionsByType` and is at most the number of questions |
| Quizzes.MatchingIndicesCount | Quiz.java:313-321 | the filter of the first n questions is as long as the set of matching positions below n |
| Quizzes.QuestionsByType | Quiz.java:328-336 | keeps exactly the questions whose type matches ignoring case |
| Quizzes.FilterMultiplicity | Quiz.java:328-336 | each question of the type occurs in the result as often as in the quiz, every other question not at all |
| Quizzes.FilterKeepsDuplicates | Quiz.java:328-336 | a matching question listed twice is returned twice |
| Quizzes.InvalidQuestionErrors | Quiz.java:371-378 | one error per invalid question, carrying its 1-based number, and no other |
| Quizzes.ValidationErrorsAgreeWithIsValid | Quiz.java:363-382 | the error list is empty exactly when `isValid` holds, and names exactly the failing title, count and invalid questions |
| Quizzes.WellFormedValidity | Quiz.java:344-357 | in a quiz built by the guarded operations, only the title and the count can make it invalid |
| Quizzes.AllValidPermutation | Quiz.java:344-357 | "every question valid" does not depend on the order |
| Quizzes.KeepValidOfValid | Quiz.java:443-453 | filtering a list of valid questions keeps it whole |
| Quizzes.ClonesOfValid | Quiz.java:443-453 | cloning each of a list of valid questions gives the same list |
| Quizzes.AddEachKeepsSettings | Quiz.java:448-450 | adding questions one by one changes only the question list |
| Quizzes.AddEachAppendsValid | Quiz.java:448-450 | adding questions one by one appends exactly the valid ones, in order |
| Quizzes.CloneQuiz | Quiz.java:443-453 | the copy has a fresh id, the same settings, and the clones of the valid questions; a valid quiz is copied whole and stays valid |
| Quizzes.EstimatedTime | Quiz.java:470-472 | whole minutes for the questions at the given pace, truncated toward zero for either sign |
| Quizzes.TimeLimitSetting | Quiz.java:478-480 | `hasTimeLimit`: a fresh quiz has none; after `setTimeLimit` the quiz has one exactly when the value was accepted and positive, or was rejected and the old limit was positive; question edits leave it unchanged |
| Results.NewResult | Result.java:38-53 | the empty attempt: no questions, no answers, zero marks, not passed |
| Results.StartAttempt | Result.java:61-71 | the attempt snapshots the quiz's id, title, questions and total; with a null quiz, the defaults remain |
| Results.RecordAnswer | Result.java:182-184 | stores or overwrites the answer at one index, leaving the others |
| Results.GetAnswer | Result.java:191-193 | an unrecorded index reads as null |
| Results.AnsweredCount | Result.java:208-210 | the count is 0 exactly when no index is answered; with Results.RecordCounts, each newly recorded index adds one |
| Results.UnansweredCount | Result.java:216-218 | answered plus unanswered is the snapshot size; when every answer is at a snapshot index, the count is the number of snapshot indices without an answer |
| Results.RecordThenGet | Result.java:182-193 | a recorded answer reads back, other indices are untouched, and the index counts as answered |
| Results.RecordCounts | Result.java:182-210 | recording a new index adds one to the answered count; re-recording adds nothing |
| Results.Tally | Result.java:231-245 | the grading loop has an entry for each visited index, true exactly when a non-null answer is accepted; the marks are the sum, over visited indices, of the marks of the correctly answered questions |
| Results.Percentage | Result.java:248-252 | the percentage times the total is 100 × obtained, lies in [0, 100] when 0 ≤ obtained ≤ total, and is 0 for a non-positive total |
| Results.CalculateResult | Result.java:226-255 | grading has an entry for every snapshot index and nothing else; the marks obtained are the sum of the marks of the correctly answered questions; it sets the percentage against the stored total and passes exactly at or above the threshold; the stored total stays consistent with the snapshot; nothing else changes |
| Results.CalculateResultIdempotent | Result.java:226-255 | grading twice is grading once |
| Results.PassedIffThreshold | Result.java:254 | with a positive total, passing is the exact integer comparison 100 × obtained >= threshold × total |
| Results.PassVerdict | Result.java:248-254 | the real-valued pass test equals the integer comparison |
| Results.ZeroTotalFails | Result.java:248-254 | with no marks available, the percentage is 0 and only a threshold of 0 or below passes |
| Results.ExactThresholdPasses | Result.java:254 | scoring exactly the passing percentage passes |
| Results.PercentageBounds | Result.java:226-255 | with non-negative marks, the obtained marks lie within the total and the percentage lies in [0, 100] |
| Results.SampleGrading | Result.java:226-255 | a one-question, one-mark quiz scores 1 mark, 100% and a pass exactly when its answer is accepted |
| Results.SampleCorrectAnswer | Result.java:226-255 | answering "4" to "2+2=?" scores 1, 100%, passed |
| Results.SampleWrongAnswer | Result.java:226-255 | answering "3" scores 0, 0%, failed |
| Results.SampleSkipped | Result.java:226-255 | skipping leaves one unanswered question marked false and fails |
| Results.PartialCredit | Result.java:226-255 | answering a 1-mark question right and a 5-mark question wrong earns exactly 1 mark, and fails at 50% |
| Results.CorrectAnswersCount | Result.java:261-269 | the number of true entries never exceeds the number of entries |
| Results.CorrectAnswersCountAfterGrading | Result.java:261-269 | after grading, the count equals the number of snapshot questions whose recorded answer that question accepts |
| Results.IncorrectAnswersCount | Result.java:275-277 | correct plus incorrect is the answered count; when only answered indices are marked correct, the count is the number of answered indices not marked correct |
| Results.IsAnswerCorrectAfterGrading | Result.java:284-287 | after grading, an index reads correct exactly when it is in the snapshot and its answer is accepted |
| Results.CorrectAtMostAnswered | Result.java:261-277 | after grading, correct answers are at most the answered ones, so the incorrect count is not negative |
| Results.LetterGrade | Result.java:375-381 | A, B, C, D, F by bands at 90, 80, 70, 60, each inclusive at its lower bound |
| Results.GradeMonotone | Result.java:375-381 | a higher percentage never earns a lower grade |
| Results.StartAttemptValidity | Result.java:413-417 | an attempt is valid exactly when the quiz is non-null with a non-empty id and a positive total, and the student name is non-empty |
| Results.StartAttemptFromValidQuiz | Result.java:413-417 | a valid quiz always has a positive total, so only the id and the name decide |
| Results.FormatTime | Result.java:398-407 | at 60 seconds or more, the text is "<m>m <s>s" with 60m + s the input and s < 60; below 60 it is "<seconds>s" |
| Results.FormatTimeReadsBack | Result.java:398-407 | the two numbers in the text read back to the input seconds |
| Validator.IsNotEmptyMeansVisibleCharacter | Validator.java:48-50 | a string is non-empty exactly when it has a character above U+0020, and then its trim is not empty |
| Text.Utf16Length | Validator.java:63 | `String.length` counts UTF-16 code units: between the number of characters and twice that, equal to it exactly when no character is above U+FFFF |
| Text.Utf16LengthAppend | Validator.java:63 | code-unit lengths add over concatenation |
| Text.Trim | Validator.java:48-50 | `String.trim` as the validators use it: the result is the slice of the input from the first to the last character above U+0020, and is empty exactly for blank input |
| Validator.LengthProblem | Validator.java:59-65 | no problem exactly when `isValidLength` holds (trimmed length in UTF-16 code units within the bounds); an empty input reports the empty problem |
| Validator.ValidateQuestionText | Validator.java:222-237 | no message exactly when `isValidQuestionText` holds; the empty message exactly for empty text |
| Validator.ValidateAnswer | Validator.java:253-261 | no message exactly when `isValidAnswer` holds; the empty message exactly for an empty answer |
| Validator.ValidateMarks | Validator.java:277-282 | no message exactly when the marks are in [1, 100] |
| Validator.FirstBlank | Validator.java:333-337 | the first blank option, or none when every option is non-empty |
| Validator.FirstDuplicate | Validator.java:339-346 | the first option that has a later twin (trimmed, ignoring case), or none |
| Validator.NoDuplicateIffDistinct | Validator.java:299-307 | the duplicate search finds nothing exactly when no two options clash |
| Validator.ValidateOptions | Validator.java:317-346 | no message exactly when `isValidOptions` holds; a blank-option message names the first blank option, 1-based; a duplicate message names an option that has a later twin |
| Validator.ContainsOption | Validator.java:359-363 | the loop finds a match exactly when some remaining option matches |
| Validator.IsAnswerInOptions | Validator.java:354-366 | true exactly for a non-empty answer that matches some option, trimmed and ignoring case |
| Validator.ExactOptionIsFound | Validator.java:354-366 | an answer that is literally an option is found |
| Validator.ChoiceProblems | Validator.java:394-407 | the choice checks report nothing exactly for non-Multiple-Choice questions, or for valid options containing the answer |
| Validator.ValidateQuestion | Validator.java:373-410 | a null question reports only that it is null; at most four problems |
| Validator.ValidateQuestionEmptyIff | Validator.java:373-410 | the problem list is empty exactly when text, marks, answer and (for Multiple-Choice) options and membership all pass |
| Validator.ValidatedIsValid | Validator.java:373-410 | for a normalised question that is not Multiple-Choice, passing validation implies `isValid` |
| Validator.ValidatedChoiceIsValid | Validator.java:373-410 | a validated Multiple-Choice question whose answer is literally an option is valid |
| Validator.MismatchedChoicePasses | Validator.java:373-410 | a question whose answer matches an option only up to case passes validation |
| Validator.MismatchedChoiceInvalid | Questions.java:241-244 | the same question fails `isValid` |
| Validator.ChoiceMatchingDiffers | Questions.java:241-244 | validation and `isValid` disagree on that question |
| Validator.ValidateQuizTitle | Validator.java:428-439 | no message exactly when the title's trimmed length in UTF-16 code units is in [3, 100]; the empty message exactly for an empty title |
| Validator.TitleLengthCountsCodeUnits | Validator.java:428-439 | one U+1F600 emoji is two code units and too short a title; two of them make a valid title |
| Validator.ValidateTimeLimit | Validator.java:468-473 | no message exactly when the limit is in [0, 300] |
| Validator.ValidatePassingPercentage | Validator.java:489-494 | no message exactly when the percentage is in [0, 100] |
| Validator.QuestionProblems | Validator.java:534-540 | the per-question loop reports nothing exactly when every question's list is empty, and each report names a question and one of its problems |
| Validator.QuestionProblemsComplete | Validator.java:534-540 | every problem of every question is reported under its number |
| Validator.QuizFieldProblems | Validator.java:509-531 | the quiz-level checks report nothing exactly when title, count, time limit and percentage pass |
| Validator.ValidateQuiz | Validator.java:501-543 | a null quiz reports only that it is null |
| Validator.ValidateQuizEmptyIff | Validator.java:501-543 | the list is empty exactly when the quiz fields pass and every question passes `validateQuestion` |
| Validator.QuestionProblemsEmptyIff | Validator.java:534-540 | no question reports a problem exactly when every question passes validation |
| Validator.QuestionProblemsMembership | Validator.java:534-540 | a numbered report is present exactly when that question reported that problem |
| Validator.ValidateQuizNamesQuestionProblems | Validator.java:501-543 | "Question n: p" is in the quiz list exactly when question n reported p |
| Validator.ValidateTrueFalseAnswer | Validator.java:568-578 | no message exactly for the six tokens; the empty message exactly for empty input |
| Validator.TrueFalseTokensAgree | Validator.java:552-561 | the normaliser reads the accepted tokens as the validator means them, and reads every unaccepted string as False |
| Validator.UnrecognisedAnswerGradesAsFalse | Questions.java:305-311 | an answer the validator rejects is graded correct against a stored "False" |
| Validator.StringsSplitFourWays | Validator.java:587-589 | every string is null, empty, whitespace-only or non-empty, and whitespace-only strings are not non-empty |
| Validator.CollapseSpaces | Validator.java:600 | collapsing never lengthens the string |
| Validator.CollapseSpacesFacts | Validator.java:600 | collapsing keeps the non-space characters in order, leaves no two spaces in a row and no space but ' ' |
| Validator.CollapseSpacesLast | Validator.java:600 | a last character that is not a space survives collapsing |
| Validator.CollapseSpacesOfCollapsed | Validator.java:600 | an already collapsed string is unchanged |
| Validator.CollapseSpacesOfRun | Validator.java:600 | a non-empty run of regex-space characters becomes exactly one ' ' |
| Validator.CollapseSpacesSplit | Validator.java:600 | collapsing distributes over any split that does not cut a run of spaces, so each maximal run becomes one ' ' in place and every other character stays |
| Validator.CollapseSpacesExample | Validator.java:600 | `"a \t b"` collapses to `"a b"` |
| Validator.SanitizeInput | Validator.java:596-601 | null gives ""; the result has no trimmable ends, no double spaces and only ' ' as space; it keeps the non-space characters of the trimmed input, and is empty exactly for blank input |
| Validator.SanitizeIdempotent | Validator.java:596-601 | sanitising twice is sanitising once |
| Validator.SanitizeExample | Validator.java:596-601 | `"  a \t b "` sanitises to `"a b"`: the ends are trimmed and the interior run stays as one space |

## Left out

- FileHandler and the console UI (QuizMaker, Main, QuizCreationUI, QuizAttemptUI, ResultUI) are not part of this model: they are I/O.
- Creation and modification dates, and the clock-derived quiz and result ids: ids are caller-supplied strings, and dates are dropped.
- Quizzes.Shuffle: the random order of `Collections.shuffle` is a parameter; the model states only that the result is a rearrangement.
- Results.Percentage: computed as an exact real. Java's `double` can land just below the exact value (57 / 100 * 100 is 56.99999999999999), which can turn an exact-threshold pass into a fail. The model does not reproduce this rounding.
- Quizzes.TotalMarks: totals are unbounded; Java's 32-bit wrap-around on enormous totals is not modelled. The same holds for Quizzes.PassingMarks, Quizzes.EstimatedTime and the `marksObtained` accumulation in Results.CalculateResult (Result.java:239).
- Java object identity and aliasing are not modelled. A question edited after it was added to a quiz, and the shallow question list a Result shares with its quiz, have no counterpart in value semantics.
- `removeQuestion(Questions)` removes by `equals`, which `Questions` does not override, so it means object identity; value semantics cannot express it.
- The unguarded plain setters and getters (description, author, active flag, Result's own setters) assign a field and are not modelled separately.
- Message text: the validator's message strings are the `Problem` constructors, and the quiz's error strings are `QuizError` constructors.
- Null elements inside an option list are not modelled: `isAnswerInOptions` would throw on them.
- `isValidName`/`validateName`, `isValidEmail`/`validateEmail` and `isAlphanumeric` are left out: they are regular-expression checks outside the quiz rules. So are `parseInteger`/`validateInteger`, `isPositive`, `isNonNegative`, `isValidQuizDescription`, `isValidList` and `formatErrors`.
- The display and summary methods and `getAverageMarksPerQuestion` are left out: they are formatting and floating point.
- Case mapping is ASCII only; Java's full Unicode `toLowerCase`/`equalsIgnoreCase` is not modelled.
- Quizzes.QuestionsByType: the contract and Quizzes.FilterMultiplicity state which questions are kept and how often; they do not state that the source order is kept.

=== FILE: java_lang.dfy ===
/**
 * The few pieces of Java semantics the quiz model depends on: nullable
 * references, and integer division that truncates toward zero.
 */
module JavaLang {

  /** A Java reference that may be null. */
  datatype Nullable<+T> = Null | NonNull(value: T)

  /**
   * Java's `/` on `int`: the quotient is truncated toward zero, so for a
   * negative dividend it differs from Dafny's Euclidean division.
   * Every division in the model has a positive constant divisor.
   */
  function Div(a: int, b: int): (q: int)
    requires b > 0
    ensures a >= 0 ==> q * b <= a < q * b + b
    ensures a < 0 ==> q * b - b < a <= q * b
    ensures a >= 0 ==> q >= 0
    ensures a < 0 ==> q <= 0
  {
    if a >= 0 then a / b else -((-a) / b)
  }

  /** Java's `%` on `int`: the remainder takes the sign of the dividend. */
  function Rem(a: int, b: int): (r: int)
    requires b > 0
    ensures a == Div(a, b) * b + r
    ensures a >= 0 ==> 0 <= r < b
    ensures a < 0 ==> -b < r <= 0
  {
    a - Div(a, b) * b
  }
}

=== FILE: questions.dfy ===
/**
 * The three question variants and their answer-checking rules: Multiple-Choice,
 * True/False and Short-Answer, as one closed datatype.
 */
module Questions {
  import opened JavaLang
  import opened Text

  /**
   * A question. Text and correct answer are Java references and may be null;
   * `marks` is whatever the constructor was given (only `SetMarks` coerces).
   */
  datatype Question =
    | MultipleChoice(text: Nullable<string>, marks: int, correctAnswer: Nullable<string>, options: seq<string>)
    | TrueFalse(text: Nullable<string>, marks: int, correctAnswer: Nullable<string>)
    | ShortAnswer(text: Nullable<string>, marks: int, correctAnswer: Nullable<string>, caseSensitive: bool)

  const TrueLabel: string := "True"
  const FalseLabel: string := "False"

  // ---------------------------------------------------------------------
  // Construction

  /** The no-argument constructors: empty text and answer, one mark. */
  function BlankMultipleChoice(): Question {
    MultipleChoice(NonNull(""), 1, NonNull(""), [])
  }

  function BlankTrueFalse(): Question {
    TrueFalse(NonNull(""), 1, NonNull(""))
  }

  function BlankShortAnswer(): Question {
    ShortAnswer(NonNull(""), 1, NonNull(""), false)
  }

  /**
   * The True/False normaliser: "True" exactly for the trimmed, lower-cased
   * tokens "true", "t" and "1" (and for null), "False" for anything else.
   */
  function NormalizeAnswer(answer: Nullable<string>): (r: string)
    ensures r == TrueLabel || r == FalseLabel
  {
    if answer.Null? then TrueLabel
    else
      var normalized := ToLower(Trim(answer.value));
      if normalized == "true" || normalized == "t" || normalized == "1" then TrueLabel else FalseLabel
  }

  /**
   * The True/False constructor: a non-null answer is normalised, a null one
   * is stored as null.
   */
  function NewTrueFalse(text: Nullable<string>, marks: int, correctAnswer: Nullable<string>): (q: Question)
    ensures q.TrueFalse? && q.text == text && q.marks == marks
    ensures StoresNormalizedAnswer(q)
    ensures correctAnswer.NonNull? ==> q.correctAnswer == NonNull(NormalizeAnswer(correctAnswer))
    ensures correctAnswer.Null? ==> q.correctAnswer.Null?
  {
    TrueFalse(text, marks, if correctAnswer.Null? then Null else NonNull(NormalizeAnswer(correctAnswer)))
  }

  /**
   * What a True/False question built by the three-argument constructor, and
   * kept so by `setCorrectAnswer`, satisfies: the stored answer is null,
   * "True" or "False". The no-argument constructor stores "" instead (see
   * `BlankTrueFalse`), which is not normalised.
   */
  predicate StoresNormalizedAnswer(q: Question) {
    q.TrueFalse? ==> q.correctAnswer in {Null, NonNull(TrueLabel), NonNull(FalseLabel)}
  }

  // ---------------------------------------------------------------------
  // Setters

  /**
   * `setQuestionText`: stored without a check. The text plays no part in
   * answer checking; a null or blank text makes the question invalid, and
   * between two non-blank texts validity does not change.
   */
  function SetQuestionText(q: Question, text: Nullable<string>): (r: Question)
    ensures r.text == text && r == q.(text := text)
    ensures forall a :: CheckAnswer(r, a) == CheckAnswer(q, a)
    ensures text.Null? || IsBlank(text.value) ==> !IsValid(r)
    ensures text.NonNull? && !IsBlank(text.value) && q.text.NonNull? && !IsBlank(q.text.value) ==>
      (IsValid(r) <==> IsValid(q))
  {
    q.(text := text)
  }

  /** `setMarks`: a positive value is kept, anything else becomes 1. */
  function SetMarks(q: Question, m: int): (r: Question)
    ensures r.marks > 0
    ensures m > 0 ==> r.marks == m
    ensures m <= 0 ==> r.marks == 1
    ensures r == q.(marks := r.marks)
  {
    q.(marks := if m > 0 then m else 1)
  }

  /**
   * `setCorrectAnswer`: the True/False override normalises (null becomes
   * "True"); the other variants store the value as given.
   */
  function SetCorrectAnswer(q: Question, answer: Nullable<string>): (r: Question)
    ensures q.TrueFalse? ==> r.correctAnswer == NonNull(NormalizeAnswer(answer))
    ensures !q.TrueFalse? ==> r.correctAnswer == answer
    ensures r == q.(correctAnswer := r.correctAnswer)
    ensures StoresNormalizedAnswer(r)
  {
    match q
    case TrueFalse(text, marks, _) => TrueFalse(text, marks, NonNull(NormalizeAnswer(answer)))
    case MultipleChoice(text, marks, _, options) => MultipleChoice(text, marks, answer, options)
    case ShortAnswer(text, marks, _, caseSensitive) => ShortAnswer(text, marks, answer, caseSensitive)
  }

  /**
   * `setOptions` (Multiple-Choice only): replaces the option list. Answer
   * checking ignores the options; validity now asks for two options one of
   * which is exactly the correct answer.
   */
  function SetOptions(q: Question, options: seq<string>): (r: Question)
    requires q.MultipleChoice?
    ensures r.MultipleChoice? && r.options == options && r == q.(options := options)
    ensures Options(r) == options
    ensures forall a :: CheckAnswer(r, a) == CheckAnswer(q, a)
    ensures IsValid(r) <==> BaseValid(q) && |options| >= 2 && q.correctAnswer.value in options
  {
    q.(options := options)
  }

  /** `addOption` (Multiple-Choice only): appends a non-blank option, ignores the rest. */
  function AddOption(q: Question, option: Nullable<string>): (r: Question)
    requires q.MultipleChoice?
    ensures r.MultipleChoice?
    ensures option.NonNull? && !IsBlank(option.value) ==> r.options == q.options + [option.value]
    ensures option.Null? || IsBlank(option.value) ==> r == q
    ensures r == q.(options := r.options)
  {
    if option.NonNull? && !IsBlank(option.value) then q.(options := q.options + [option.value]) else q
  }

  /** Index of the first occurrence of `x` in `s`, or |s| when absent. */
  function IndexOf(s: seq<string>, x: string): (i: nat)
    ensures i <= |s|
    ensures i < |s| ==> s[i] == x
    ensures forall k :: 0 <= k < i ==> s[k] != x
  {
    if |s| == 0 then 0 else if s[0] == x then 0 else 1 + IndexOf(s[1..], x)
  }

  /** `removeOption` (Multiple-Choice only): drops the first equal option, if any. */
  function RemoveOption(q: Question, option: Nullable<string>): (r: Question)
    requires q.MultipleChoice?
    ensures r.MultipleChoice? && r == q.(options := r.options)
    ensures option.Null? || option.value !in q.options ==> r == q
    ensures option.NonNull? && option.value in q.options ==>
      exists i :: 0 <= i < |q.options| && q.options[i] == option.value
        && option.value !in q.options[..i] && r.options == q.options[..i] + q.options[i + 1..]
  {
    if option.Null? then q
    else
      var i := IndexOf(q.options, option.value);
      if i == |q.options| then q else q.(options := q.options[..i] + q.options[i + 1..])
  }

  /**
   * `setCaseSensitive` (Short-Answer only). Validity does not depend on the
   * flag; every answer the question accepts is accepted ignoring case, and
   * turning the flag off accepts every answer the case-sensitive form did.
   */
  function SetCaseSensitive(q: Question, caseSensitive: bool): (r: Question)
    requires q.ShortAnswer?
    ensures r.ShortAnswer? && r.caseSensitive == caseSensitive && r == q.(caseSensitive := caseSensitive)
    ensures IsValid(r) <==> IsValid(q)
    ensures forall a :: CheckAnswer(r, a) ==> CheckAnswer(q.(caseSensitive := false), a)
    ensures !caseSensitive ==> forall a :: CheckAnswer(q.(caseSensitive := true), a) ==> CheckAnswer(r, a)
  {
    q.(caseSensitive := caseSensitive)
  }

  // ---------------------------------------------------------------------
  // The shared capability interface

  function QuestionType(q: Question): string {
    match q
    case MultipleChoice(_, _, _, _) => "Multiple Choice"
    case TrueFalse(_, _, _) => "True/False"
    case ShortAnswer(_, _, _, _) => "Short Answer"
  }

  /** `getOptions`: a copy of the Multiple-Choice list; fixed for the other variants. */
  function Options(q: Question): seq<string> {
    match q
    case MultipleChoice(_, _, _, options) => options
    case TrueFalse(_, _, _) => [TrueLabel, FalseLabel]
    case ShortAnswer(_, _, _, _) => []
  }

  /** The answer-checking rule of each variant. A null answer is never correct. */
  predicate CheckAnswer(q: Question, userAnswer: Nullable<string>)
    ensures CheckAnswer(q, userAnswer) ==> userAnswer.NonNull? && q.correctAnswer.NonNull?
  {
    match q
    case MultipleChoice(_, _, correct, _) =>
      userAnswer.NonNull? && correct.NonNull?
      && EqualsIgnoreCase(Trim(userAnswer.value), Trim(correct.value))
    case TrueFalse(_, _, correct) =>
      userAnswer.NonNull? && correct == NonNull(NormalizeAnswer(userAnswer))
    case ShortAnswer(_, _, correct, caseSensitive) =>
      userAnswer.NonNull? && correct.NonNull?
      && if caseSensitive then Trim(userAnswer.value) == Trim(correct.value)
         else EqualsIgnoreCase(Trim(userAnswer.value), Trim(correct.value))
  }

  /** The base `isValid`: non-blank text, positive marks, non-blank correct answer. */
  predicate BaseValid(q: Question) {
    && q.text.NonNull? && !IsBlank(q.text.value)
    && q.marks > 0
    && q.correctAnswer.NonNull? && !IsBlank(q.correctAnswer.value)
  }

  /**
   * `isValid` with each variant's extra rule: Multiple-Choice needs two
   * options one of which is exactly (case-sensitively) the correct answer;
   * True/False needs the answer to be "True" or "False".
   */
  predicate IsValid(q: Question)
    ensures IsValid(q) ==> BaseValid(q)
    ensures IsValid(q) && !q.ShortAnswer? ==> q.correctAnswer.value in Options(q) && |Options(q)| >= 2
  {
    match q
    case MultipleChoice(_, _, correct, options) =>
      BaseValid(q) && |options| >= 2 && correct.value in options
    case TrueFalse(_, _, correct) =>
      BaseValid(q) && (correct.value == TrueLabel || correct.value == FalseLabel)
    case ShortAnswer(_, _, _, _) =>
      BaseValid(q)
  }

  /**
   * `clone`: every variant passes its fields to its constructor, so the
   * True/False copy re-normalises a non-null answer.
   */
  function Clone(q: Question): (r: Question)
    ensures r.text == q.text && r.marks == q.marks && Options(r) == Options(q)
    ensures QuestionType(r) == QuestionType(q)
    ensures r.ShortAnswer? ==> r.caseSensitive == q.caseSensitive
    ensures q.TrueFalse? && q.correctAnswer.NonNull? ==> r.correctAnswer == NonNull(NormalizeAnswer(q.correctAnswer))
    ensures !q.TrueFalse? || q.correctAnswer.Null? ==> r.correctAnswer == q.correctAnswer
    ensures StoresNormalizedAnswer(q) ==> r == q
    ensures StoresNormalizedAnswer(r)
  {
    match q
    case MultipleChoice(text, marks, correct, options) => MultipleChoice(text, marks, correct, options)
    case TrueFalse(text, marks, correct) => NewTrueFalse(text, marks, correct)
    case ShortAnswer(text, marks, correct, caseSensitive) => ShortAnswer(text, marks, correct, caseSensitive)
  }

  // ---------------------------------------------------------------------
  // Properties of the answer-checking rules

  /** The type label tells the variant apart. */
  lemma QuestionTypeIdentifiesVariant(q: Question)
    ensures QuestionType(q) == "Multiple Choice" <==> q.MultipleChoice?
    ensures QuestionType(q) == "True/False" <==> q.TrueFalse?
    ensures QuestionType(q) == "Short Answer" <==> q.ShortAnswer?
  {
  }

  /**
   * Multiple-Choice grading: the trimmed answers agree up to ASCII case. The
   * option list plays no part.
   */
  lemma MultipleChoiceGrading(q: Question, u: Nullable<string>, options: seq<string>)
    requires q.MultipleChoice?
    ensures CheckAnswer(q, u) <==>
      u.NonNull? && q.correctAnswer.NonNull? && ToLower(Trim(u.value)) == ToLower(Trim(q.correctAnswer.value))
    ensures CheckAnswer(q.(options := options), u) == CheckAnswer(q, u)
  {
  }

  /**
   * A Multiple-Choice or Short-Answer question accepts its own correct answer,
   * its upper-cased form (when not case-sensitive) and its lower-cased form
   * (when not case-sensitive); nothing accepts an empty answer unless the
   * correct answer is blank.
   */
  lemma AcceptsCorrectAnswerAndCaseVariants(q: Question)
    requires q.MultipleChoice? || q.ShortAnswer?
    requires q.correctAnswer.NonNull?
    ensures CheckAnswer(q, q.correctAnswer)
    ensures q.MultipleChoice? || !q.caseSensitive ==>
      CheckAnswer(q, NonNull(ToUpper(q.correctAnswer.value)))
      && CheckAnswer(q, NonNull(ToLower(q.correctAnswer.value)))
    ensures !IsBlank(q.correctAnswer.value) ==> !CheckAnswer(q, NonNull(""))
  {
    var c := q.correctAnswer.value;
    TrimOfUpper(c);
    LowerOfUpper(Trim(c));
    TrimOfLower(c);
    LowerIdempotent(Trim(c));
    assert Trim("") == "";
  }

  /** A case-sensitive Short-Answer match is also a case-insensitive one. */
  lemma CaseSensitiveMatchImpliesInsensitive(q: Question, u: Nullable<string>)
    requires q.ShortAnswer?
    ensures CheckAnswer(q.(caseSensitive := true), u) ==> CheckAnswer(q.(caseSensitive := false), u)
  {
  }

  /** On its own outputs the normaliser is the identity. */
  lemma NormalizeFixesLabels(stored: string)
    requires stored == TrueLabel || stored == FalseLabel
    ensures NormalizeAnswer(NonNull(stored)) == stored
  {
    TrimOfTrimmed(stored);
    if stored == TrueLabel {
      assert ToLower(stored) == "true" by {
        assert ToLower(stored)[0] == LowerChar('T') == 't';
      }
    } else {
      assert ToLower(stored) == "false" by {
        assert ToLower(stored)[0] == LowerChar('F') == 'f';
      }
    }
  }

  /** The normaliser is idempotent. */
  lemma NormalizeIdempotent(answer: Nullable<string>)
    ensures NormalizeAnswer(NonNull(NormalizeAnswer(answer))) == NormalizeAnswer(answer)
  {
    NormalizeFixesLabels(NormalizeAnswer(answer));
  }

  /**
   * True/False grading compares normalised forms, so with a stored "False"
   * every non-null answer the normaliser does not recognise as true is correct.
   */
  lemma TrueFalseGrading(q: Question, u: Nullable<string>)
    requires q.TrueFalse?
    ensures CheckAnswer(q, u) <==> u.NonNull? && q.correctAnswer == NonNull(NormalizeAnswer(u))
    ensures (q.correctAnswer == NonNull(FalseLabel) && u.NonNull?
             && ToLower(Trim(u.value)) !in {"true", "t", "1"}) ==> CheckAnswer(q, u)
  {
  }

  /**
   * For a True/False question with a stored answer, exactly one of the two
   * offered options is graded correct.
   */
  lemma TrueFalseExactlyOneOptionCorrect(q: Question)
    requires q.TrueFalse? && StoresNormalizedAnswer(q) && q.correctAnswer.NonNull?
    ensures Options(q) == [TrueLabel, FalseLabel]
    ensures CheckAnswer(q, NonNull(TrueLabel)) != CheckAnswer(q, NonNull(FalseLabel))
  {
    NormalizeFixesLabels(TrueLabel);
    NormalizeFixesLabels(FalseLabel);
  }

  /** The four spellings of "true" the normaliser recognises. */
  lemma NormalizesToTrue(token: string)
    requires token == "true" || token == "True" || token == "T" || token == "1"
    ensures NormalizeAnswer(NonNull(token)) == TrueLabel
  {
    TrimOfTrimmed(token);
    var lowered := ToLower(token);
    assert lowered == "true" || lowered == "t" || lowered == "1" by {
      if token == "True" {
        assert lowered[0] == LowerChar('T') == 't';
      } else if token == "T" {
        assert lowered[0] == LowerChar('T') == 't';
      }
    }
  }

  /** The word "false" normalises to "False". */
  lemma FalseWordNormalizes()
    ensures NormalizeAnswer(NonNull("false")) == FalseLabel
  {
    TrimOfTrimmed("false");
    assert ToLower("false") == "false";
  }

  /** Built with any of "true", "True", "T" or "1", the question stores "True" and rejects "false". */
  lemma TrueFalseTrueTokens(text: Nullable<string>, marks: int, token: string)
    requires token == "true" || token == "True" || token == "T" || token == "1"
    ensures NewTrueFalse(text, marks, NonNull(token)).correctAnswer == NonNull(TrueLabel)
    ensures !CheckAnswer(NewTrueFalse(text, marks, NonNull(token)), NonNull("false"))
  {
    NormalizesToTrue(token);
    FalseWordNormalizes();
  }

  /**
   * Because the constructor and setter normalise, the True/False-specific
   * check of `isValid` adds nothing: validity is the base rule.
   */
  lemma TrueFalseValidityIsBase(q: Question)
    requires q.TrueFalse? && StoresNormalizedAnswer(q)
    ensures IsValid(q) <==> BaseValid(q)
  {
  }

  /** A valid question has positive marks, and a valid Multiple-Choice one offers its answer. */
  lemma ValidQuestionFacts(q: Question)
    requires IsValid(q)
    ensures q.marks > 0 && q.correctAnswer.NonNull? && q.text.NonNull?
    ensures q.MultipleChoice? ==> |Options(q)| >= 2 && q.correctAnswer.value in Options(q)
    ensures StoresNormalizedAnswer(q)
    ensures CheckAnswer(q, q.correctAnswer)
  {
    if q.TrueFalse? {
      NormalizeFixesLabels(q.correctAnswer.value);
    } else {
      AcceptsCorrectAnswerAndCaseVariants(q);
    }
  }

  /** Cloning a valid question yields the same question; cloning is idempotent. */
  lemma CloneOfValid(q: Question)
    ensures IsValid(q) ==> Clone(q) == q && IsValid(Clone(q))
    ensures Clone(Clone(q)) == Clone(q)
    ensures IsValid(q) ==> CheckAnswer(Clone(q), NonNull("")) == CheckAnswer(q, NonNull(""))
  {
    if IsValid(q) {
      ValidQuestionFacts(q);
    }
  }

  /**
   * The no-argument True/False question stores "", which is not a label; its
   * clone goes through the normaliser and stores "False", so the copy differs.
   */
  lemma CloneOfBlankTrueFalse()
    ensures Clone(BlankTrueFalse()).correctAnswer == NonNull(FalseLabel)
    ensures Clone(BlankTrueFalse()) != BlankTrueFalse()
  {
    assert Trim("") == "";
  }
}

=== FILE: quiz.dfy ===
/**
 * A quiz: an ordered sequence of questions plus its settings, with the
 * index-guarded editing operations and the derived statistics. Every
 * mutator returns the new quiz together with its success report; on failure
 * the quiz comes back unchanged.
 */
module Quizzes {
  import opened JavaLang
  import opened Text
  import opened Questions

  /**
   * The quiz record. Creation and modification dates are not modelled; the
   * id is whatever the caller supplies (the source derives it from the clock).
   */
  datatype Quiz = Quiz(
    id: string,
    title: Nullable<string>,
    description: Nullable<string>,
    createdBy: Nullable<string>,
    timeLimit: int,
    isActive: bool,
    questions: seq<Question>,
    passingPercentage: int)

  /** `b` differs from `a` at most in its question list. */
  predicate SameSettings(a: Quiz, b: Quiz) {
    a.(questions := b.questions) == b
  }

  /**
   * What the guarded operations maintain: the passing percentage is in
   * [0, 100] and every question in the list is valid.
   */
  predicate WellFormed(quiz: Quiz) {
    && 0 <= quiz.passingPercentage <= 100
    && forall i :: 0 <= i < |quiz.questions| ==> IsValid(quiz.questions[i])
  }

  // ---------------------------------------------------------------------
  // Construction

  /** The no-argument constructor. */
  function NewQuiz(id: string): (q: Quiz)
    ensures q.id == id && q.questions == [] && q.timeLimit == 0 && q.isActive
    ensures q.passingPercentage == 50 && q.title == NonNull("Untitled Quiz")
    ensures WellFormed(q)
  {
    Quiz(id, NonNull("Untitled Quiz"), NonNull(""), NonNull("Anonymous"), 0, true, [], 50)
  }

  /** The (title, description) constructor: the title is stored without any check. */
  function NewTitledQuiz(id: string, title: Nullable<string>, description: Nullable<string>): (q: Quiz)
    ensures q.id == id && q.title == title && q.description == description
    ensures q.createdBy == NonNull("Anonymous") && q.timeLimit == 0 && q.isActive
    ensures q.questions == [] && q.passingPercentage == 50
    ensures WellFormed(q)
  {
    NewQuiz(id).(title := title, description := description)
  }

  /** The full constructor: title and time limit are stored without any check. */
  function NewFullQuiz(id: string, title: Nullable<string>, description: Nullable<string>,
                       createdBy: Nullable<string>, timeLimit: int): (q: Quiz)
    ensures q.id == id && q.title == title && q.description == description
    ensures q.createdBy == createdBy && q.timeLimit == timeLimit && q.isActive
    ensures q.questions == [] && q.passingPercentage == 50
    ensures WellFormed(q)
    ensures createdBy == NonNull("Anonymous") && timeLimit == 0 ==> q == NewTitledQuiz(id, title, description)
  {
    NewQuiz(id).(title := title, description := description, createdBy := createdBy, timeLimit := timeLimit)
  }

  // ---------------------------------------------------------------------
  // Guarded setters

  /** `setTitle`: a null or blank title is ignored. */
  function SetTitle(quiz: Quiz, title: Nullable<string>): (r: Quiz)
    ensures title.NonNull? && !IsBlank(title.value) ==> r == quiz.(title := title)
    ensures title.Null? || IsBlank(title.value) ==> r == quiz
    ensures (r.title.NonNull? && !IsBlank(r.title.value)) || r.title == quiz.title
    ensures WellFormed(quiz) ==> WellFormed(r)
  {
    if title.NonNull? && !IsBlank(title.value) then quiz.(title := title) else quiz
  }

  /** `setTimeLimit`: a negative limit is ignored. */
  function SetTimeLimit(quiz: Quiz, timeLimit: int): (r: Quiz)
    ensures timeLimit >= 0 ==> r == quiz.(timeLimit := timeLimit)
    ensures timeLimit < 0 ==> r == quiz
    ensures quiz.timeLimit >= 0 ==> r.timeLimit >= 0
    ensures WellFormed(quiz) ==> WellFormed(r)
  {
    if timeLimit >= 0 then quiz.(timeLimit := timeLimit) else quiz
  }

  /** `setPassingPercentage`: a value outside [0, 100] is ignored. */
  function SetPassingPercentage(quiz: Quiz, percentage: int): (r: Quiz)
    ensures 0 <= percentage <= 100 ==> r == quiz.(passingPercentage := percentage)
    ensures !(0 <= percentage <= 100) ==> r == quiz
    ensures WellFormed(quiz) ==> WellFormed(r)
  {
    if 0 <= percentage <= 100 then quiz.(passingPercentage := percentage) else quiz
  }

  // ---------------------------------------------------------------------
  // Identity

  /** `getQuizId`: the id assigned once, by the constructor. */
  function QuizId(quiz: Quiz): string {
    quiz.id
  }

  /** The id names the quiz for good: no setter or question edit changes it. */
  lemma QuizIdIsStable(quiz: Quiz, title: Nullable<string>, timeLimit: int, percentage: int,
                       index: int, question: Nullable<Question>)
    ensures QuizId(SetTitle(quiz, title)) == QuizId(quiz)
    ensures QuizId(SetTimeLimit(quiz, timeLimit)) == QuizId(quiz)
    ensures QuizId(SetPassingPercentage(quiz, percentage)) == QuizId(quiz)
    ensures QuizId(AddQuestion(quiz, question).0) == QuizId(quiz)
    ensures QuizId(AddQuestionAt(quiz, index, question).0) == QuizId(quiz)
    ensures QuizId(RemoveQuestionAt(quiz, index).0) == QuizId(quiz)
    ensures QuizId(UpdateQuestion(quiz, index, question).0) == QuizId(quiz)
    ensures QuizId(ClearQuestions(quiz)) == QuizId(quiz)
    ensures QuizId(NewQuiz(quiz.id)) == QuizId(quiz)
  {
  }

  // ---------------------------------------------------------------------
  // Question management

  /** `getQuestion`: the question at `index`, or null when out of range. */
  function GetQuestion(quiz: Quiz, index: int): (r: Nullable<Question>)
    ensures r.NonNull? <==> 0 <= index < |quiz.questions|
    ensures r.NonNull? ==> r.value == quiz.questions[index]
  {
    if 0 <= index < |quiz.questions| then NonNull(quiz.questions[index]) else Null
  }

  /** `addQuestion`: appends a non-null valid question; anything else is refused. */
  function AddQuestion(quiz: Quiz, question: Nullable<Question>): (r: (Quiz, bool))
    ensures r.1 <==> question.NonNull? && IsValid(question.value)
    ensures r.1 ==>
      && SameSettings(quiz, r.0) && |r.0.questions| == |quiz.questions| + 1
      && r.0.questions[..|quiz.questions|] == quiz.questions
      && r.0.questions[|quiz.questions|] == question.value
    ensures !r.1 ==> r.0 == quiz
    ensures WellFormed(quiz) ==> WellFormed(r.0)
  {
    if question.NonNull? && IsValid(question.value) then
      (quiz.(questions := quiz.questions + [question.value]), true)
    else
      (quiz, false)
  }

  /**
   * `addQuestionAt`: inserts a valid question before position `index`, where
   * `index == |questions|` appends.
   */
  function AddQuestionAt(quiz: Quiz, index: int, question: Nullable<Question>): (r: (Quiz, bool))
    ensures r.1 <==> question.NonNull? && IsValid(question.value) && 0 <= index <= |quiz.questions|
    ensures r.1 ==>
      && SameSettings(quiz, r.0) && |r.0.questions| == |quiz.questions| + 1
      && r.0.questions[index] == question.value
      && (forall k :: 0 <= k < index ==> r.0.questions[k] == quiz.questions[k])
      && (forall k :: index < k <= |quiz.questions| ==> r.0.questions[k] == quiz.questions[k - 1])
    ensures !r.1 ==> r.0 == quiz
    ensures WellFormed(quiz) ==> WellFormed(r.0)
  {
    if question.NonNull? && IsValid(question.value) && 0 <= index <= |quiz.questions| then
      (quiz.(questions := quiz.questions[..index] + [question.value] + quiz.questions[index..]), true)
    else
      (quiz, false)
  }

  /** `removeQuestionAt`: removes and returns the question at `index`, or null when out of range. */
  function RemoveQuestionAt(quiz: Quiz, index: int): (r: (Quiz, Nullable<Question>))
    ensures r.1.NonNull? <==> 0 <= index < |quiz.questions|
    ensures r.1.NonNull? ==>
      && r.1.value == quiz.questions[index]
      && SameSettings(quiz, r.0) && |r.0.questions| == |quiz.questions| - 1
      && (forall k :: 0 <= k < index ==> r.0.questions[k] == quiz.questions[k])
      && (forall k :: index <= k < |r.0.questions| ==> r.0.questions[k] == quiz.questions[k + 1])
    ensures r.1.Null? ==> r.0 == quiz
    ensures WellFormed(quiz) ==> WellFormed(r.0)
  {
    if 0 <= index < |quiz.questions| then
      (quiz.(questions := quiz.questions[..index] + quiz.questions[index + 1..]), NonNull(quiz.questions[index]))
    else
      (quiz, Null)
  }

  /** `updateQuestion`: replaces the question at an in-range index by a valid one. */
  function UpdateQuestion(quiz: Quiz, index: int, question: Nullable<Question>): (r: (Quiz, bool))
    ensures r.1 <==> 0 <= index < |quiz.questions| && question.NonNull? && IsValid(question.value)
    ensures SameSettings(quiz, r.0) && |r.0.questions| == |quiz.questions|
    ensures forall k :: 0 <= k < |quiz.questions| && k != index ==> r.0.questions[k] == quiz.questions[k]
    ensures r.1 ==> r.0.questions[index] == question.value
    ensures !r.1 ==> r.0 == quiz
    ensures WellFormed(quiz) ==> WellFormed(r.0)
  {
    if 0 <= index < |quiz.questions| && question.NonNull? && IsValid(question.value) then
      (quiz.(questions := quiz.questions[index := question.value]), true)
    else
      (quiz, false)
  }

  /** `clearQuestions`. */
  function ClearQuestions(quiz: Quiz): (r: Quiz)
    ensures SameSettings(quiz, r) && r.questions == []
    ensures WellFormed(quiz) ==> WellFormed(r)
  {
    quiz.(questions := [])
  }

  /**
   * `shuffleQuestions`, with the random order supplied by the caller: any
   * rearrangement of the same questions.
   */
  function Shuffle(quiz: Quiz, reordered: seq<Question>): (r: Quiz)
    requires multiset(reordered) == multiset(quiz.questions)
    ensures SameSettings(quiz, r) && multiset(r.questions) == multiset(quiz.questions)
    ensures TotalMarks(r.questions) == TotalMarks(quiz.questions)
    ensures forall t :: CountQuestionsByType(r, t) == CountQuestionsByType(quiz, t)
    ensures IsValidQuiz(r) == IsValidQuiz(quiz)
    ensures WellFormed(quiz) ==> WellFormed(r)
  {
    var r := quiz.(questions := reordered);
    SumOfPermutation(reordered, quiz.questions, MarksOf);
    forall t: Nullable<string>
      ensures CountQuestionsByType(r, t) == CountQuestionsByType(quiz, t)
    {
      SumOfPermutation(reordered, quiz.questions, TypeIndicator(t));
    }
    AllValidPermutation(reordered, quiz.questions);
    r
  }

  // ---------------------------------------------------------------------
  // Derived values, recomputed from the list every time

  /** The sum of `f` over a sequence, accumulated left to right. */
  function SumOf<T>(s: seq<T>, f: T -> int): int {
    if |s| == 0 then 0 else SumOf(s[..|s| - 1], f) + f(s[|s| - 1])
  }

  lemma {:induction false} SumOfAppend<T>(a: seq<T>, b: seq<T>, f: T -> int)
    ensures SumOf(a + b, f) == SumOf(a, f) + SumOf(b, f)
    decreases |b|
  {
    if |b| == 0 {
      assert a + b == a;
    } else {
      var b' := b[..|b| - 1];
      assert (a + b)[..|a + b| - 1] == a + b';
      SumOfAppend(a, b', f);
    }
  }

  /** A sum does not depend on the order of its terms. */
  lemma {:induction false} SumOfPermutation<T>(a: seq<T>, b: seq<T>, f: T -> int)
    requires multiset(a) == multiset(b)
    ensures SumOf(a, f) == SumOf(b, f)
    decreases |a|
  {
    if |a| == 0 {
      assert |multiset(b)| == 0;
    } else {
      var x := a[|a| - 1];
      var a' := a[..|a| - 1];
      assert a == a' + [x];
      assert x in multiset(b);
      var i :| 0 <= i < |b| && b[i] == x;
      var b' := b[..i] + b[i + 1..];
      assert b == b[..i] + [x] + b[i + 1..];
      assert multiset(b') == multiset(b) - multiset{x};
      assert multiset(a') == multiset(a) - multiset{x};
      SumOfPermutation(a', b', f);
      SumOfAppend(b[..i] + [x], b[i + 1..], f);
      SumOfAppend(b[..i], [x], f);
      SumOfAppend(b[..i], b[i + 1..], f);
      assert SumOf([x], f) == f(x) by { assert [x][..0] == []; }
    }
  }

  function MarksOf(q: Question): int {
    q.marks
  }

  /** The sum of the questions' marks (`getTotalMarks` loops over the list). */
  function TotalMarks(questions: seq<Question>): int {
    SumOf(questions, MarksOf)
  }

  /** Totals are additive over concatenation, so append adds and removal subtracts. */
  lemma TotalMarksAppend(a: seq<Question>, b: seq<Question>)
    ensures TotalMarks(a + b) == TotalMarks(a) + TotalMarks(b)
  {
    SumOfAppend(a, b, MarksOf);
  }

  /** With positive marks the total is at least the question count; with non-negative marks it is non-negative. */
  lemma {:induction false} TotalMarksBounds(qs: seq<Question>)
    ensures (forall i :: 0 <= i < |qs| ==> qs[i].marks >= 0) ==> TotalMarks(qs) >= 0
    ensures (forall i :: 0 <= i < |qs| ==> qs[i].marks > 0) ==> TotalMarks(qs) >= |qs|
    decreases |qs|
  {
    if |qs| > 0 {
      TotalMarksBounds(qs[..|qs| - 1]);
    }
  }

  /** A question spliced between two lists adds its marks to theirs. */
  lemma TotalMarksSplice(a: seq<Question>, q: Question, b: seq<Question>)
    ensures TotalMarks(a + [q] + b) == TotalMarks(a) + q.marks + TotalMarks(b)
  {
    TotalMarksAppend(a + [q], b);
    TotalMarksAppend(a, [q]);
    assert SumOf([q], MarksOf) == q.marks by { assert [q][..0] == []; }
  }

  lemma TotalMarksAfterAdd(qs: seq<Question>, q: Question)
    ensures TotalMarks(qs + [q]) == TotalMarks(qs) + q.marks
  {
    TotalMarksSplice(qs, q, []);
    assert qs + [q] + [] == qs + [q];
  }

  lemma TotalMarksAfterInsert(qs: seq<Question>, index: int, q: Question)
    requires 0 <= index <= |qs|
    ensures TotalMarks(qs[..index] + [q] + qs[index..]) == TotalMarks(qs) + q.marks
  {
    TotalMarksSplice(qs[..index], q, qs[index..]);
    TotalMarksAppend(qs[..index], qs[index..]);
    assert qs[..index] + qs[index..] == qs;
  }

  lemma TotalMarksAfterRemove(qs: seq<Question>, index: int)
    requires 0 <= index < |qs|
    ensures TotalMarks(qs[..index] + qs[index + 1..]) == TotalMarks(qs) - qs[index].marks
  {
    TotalMarksSplice(qs[..index], qs[index], qs[index + 1..]);
    TotalMarksAppend(qs[..index], qs[index + 1..]);
    assert qs == qs[..index] + [qs[index]] + qs[index + 1..];
  }

  lemma TotalMarksAfterReplace(qs: seq<Question>, index: int, q: Question)
    requires 0 <= index < |qs|
    ensures TotalMarks(qs[index := q]) == TotalMarks(qs) - qs[index].marks + q.marks
  {
    TotalMarksSplice(qs[..index], q, qs[index + 1..]);
    TotalMarksSplice(qs[..index], qs[index], qs[index + 1..]);
    assert qs[index := q] == qs[..index] + [q] + qs[index + 1..];
    assert qs == qs[..index] + [qs[index]] + qs[index + 1..];
  }

  /** `getTotalMarks` after each editing operation, in terms of the total before it. */
  lemma TotalMarksAfterEdits(quiz: Quiz, index: int, question: Nullable<Question>)
    ensures var r := AddQuestion(quiz, question);
      r.1 ==> TotalMarks(r.0.questions) == TotalMarks(quiz.questions) + question.value.marks
    ensures var r := AddQuestionAt(quiz, index, question);
      r.1 ==> TotalMarks(r.0.questions) == TotalMarks(quiz.questions) + question.value.marks
    ensures var r := RemoveQuestionAt(quiz, index);
      r.1.NonNull? ==> TotalMarks(r.0.questions) == TotalMarks(quiz.questions) - r.1.value.marks
    ensures var r := UpdateQuestion(quiz, index, question);
      r.1 ==> TotalMarks(r.0.questions) == TotalMarks(quiz.questions) - quiz.questions[index].marks + question.value.marks
    ensures TotalMarks(ClearQuestions(quiz).questions) == 0
  {
    var qs := quiz.questions;
    if question.NonNull? {
      TotalMarksAfterAdd(qs, question.value);
      if 0 <= index <= |qs| {
        TotalMarksAfterInsert(qs, index, question.value);
      }
      if 0 <= index < |qs| {
        TotalMarksAfterReplace(qs, index, question.value);
      }
    }
    if 0 <= index < |qs| {
      TotalMarksAfterRemove(qs, index);
    }
  }

  /**
   * `getPassingMarks`: the passing percentage of the total, rounded up.
   * For integer operands the source's double division and `ceil` are exact.
   */
  function PassingMarks(quiz: Quiz): (r: int)
    ensures 100 * r - 100 < TotalMarks(quiz.questions) * quiz.passingPercentage <= 100 * r
  {
    (TotalMarks(quiz.questions) * quiz.passingPercentage + 99) / 100
  }

  /** With a percentage in [0, 100] and a non-negative total, the passing marks lie between 0 and the total. */
  lemma PassingMarksBounds(quiz: Quiz)
    requires 0 <= quiz.passingPercentage <= 100
    requires TotalMarks(quiz.questions) >= 0
    ensures 0 <= PassingMarks(quiz) <= TotalMarks(quiz.questions)
  {
    var t := TotalMarks(quiz.questions);
    var p := quiz.passingPercentage;
    assert 0 <= t * p <= t * 100;
  }

  /** `getQuestionType().equalsIgnoreCase(questionType)`; a null type matches nothing. */
  predicate HasType(q: Question, questionType: Nullable<string>) {
    questionType.NonNull? && EqualsIgnoreCase(QuestionType(q), questionType.value)
  }

  function TypeIndicator(questionType: Nullable<string>): Question -> int {
    q => if HasType(q, questionType) then 1 else 0
  }

  /** `countQuestionsByType`: the number of positions holding a question of the type. */
  function CountQuestionsByType(quiz: Quiz, questionType: Nullable<string>): (n: int)
    ensures n == |QuestionsByType(quiz.questions, questionType)|
    ensures 0 <= n <= |quiz.questions|
    ensures n == |set k | 0 <= k < |quiz.questions| && HasType(quiz.questions[k], questionType)|
  {
    CountMatchesFilter(quiz.questions, questionType);
    MatchingIndicesCount(quiz.questions, questionType, |quiz.questions|);
    assert quiz.questions[..|quiz.questions|] == quiz.questions;
    SumOf(quiz.questions, TypeIndicator(questionType))
  }

  /**
   * `getQuestionsByType`: the questions of the given type, in order. Each
   * matching question is kept as often as it occurs.
   */
  function QuestionsByType(qs: seq<Question>, questionType: Nullable<string>): (r: seq<Question>)
    ensures |r| <= |qs|
    ensures forall k :: 0 <= k < |r| ==> HasType(r[k], questionType) && r[k] in qs
    ensures forall k :: 0 <= k < |qs| && HasType(qs[k], questionType) ==> qs[k] in r
  {
    if |qs| == 0 then []
    else
      var init := QuestionsByType(qs[..|qs| - 1], questionType);
      var last := qs[|qs| - 1];
      assert forall k :: 0 <= k < |qs| - 1 ==> qs[..|qs| - 1][k] == qs[k];
      if HasType(last, questionType) then init + [last] else init
  }

  lemma {:induction false} CountMatchesFilter(qs: seq<Question>, questionType: Nullable<string>)
    ensures SumOf(qs, TypeIndicator(questionType)) == |QuestionsByType(qs, questionType)|
    decreases |qs|
  {
    if |qs| > 0 {
      CountMatchesFilter(qs[..|qs| - 1], questionType);
    }
  }

  /** The filter keeps each question of the type exactly as often as it occurs. */
  lemma {:induction false} FilterMultiplicity(qs: seq<Question>, questionType: Nullable<string>)
    ensures forall x ::
      multiset(QuestionsByType(qs, questionType))[x] == (if HasType(x, questionType) then multiset(qs)[x] else 0)
    decreases |qs|
  {
    if |qs| > 0 {
      var init := QuestionsByType(qs[..|qs| - 1], questionType);
      FilterMultiplicity(qs[..|qs| - 1], questionType);
      FilterStep(qs, init, questionType);
    }
  }

  /** A question listed twice is returned twice. */
  lemma FilterKeepsDuplicates(q: Question, questionType: Nullable<string>)
    requires HasType(q, questionType)
    ensures QuestionsByType([q, q], questionType) == [q, q]
  {
    assert [q, q][..1] == [q];
    assert [q][..0] == [];
  }

  /** One filter step keeps the multiplicity of every question of the type. */
  lemma FilterStep(qs: seq<Question>, init: seq<Question>, questionType: Nullable<string>)
    requires |qs| > 0
    requires forall x :: multiset(init)[x] == (if HasType(x, questionType) then multiset(qs[..|qs| - 1])[x] else 0)
    ensures var last := qs[|qs| - 1];
      forall x :: multiset(if HasType(last, questionType) then init + [last] else init)[x]
        == (if HasType(x, questionType) then multiset(qs)[x] else 0)
  {
    var last := qs[|qs| - 1];
    assert qs == qs[..|qs| - 1] + [last];
    assert multiset(qs) == multiset(qs[..|qs| - 1]) + multiset{last};
  }

  /** The positions below `n` that hold a question of the type. */
  function MatchingIndices(qs: seq<Question>, questionType: Nullable<string>, n: nat): set<int>
    requires n <= |qs|
  {
    set k | 0 <= k < n && HasType(qs[k], questionType)
  }

  /** One more position adds itself exactly when its question matches. */
  lemma MatchingIndicesStep(qs: seq<Question>, questionType: Nullable<string>, n: nat)
    requires 0 < n <= |qs|
    ensures |MatchingIndices(qs, questionType, n)|
      == |MatchingIndices(qs, questionType, n - 1)| + (if HasType(qs[n - 1], questionType) then 1 else 0)
  {
    AddOneIndex(MatchingIndices(qs, questionType, n - 1), MatchingIndices(qs, questionType, n),
                n - 1, HasType(qs[n - 1], questionType));
  }

  /** `b` is `a` with `m` added when `added` holds. */
  lemma AddOneIndex(a: set<int>, b: set<int>, m: int, added: bool)
    requires m !in a
    requires forall k :: k in b <==> k in a || (added && k == m)
    ensures |b| == |a| + (if added then 1 else 0)
  {
    var c := if added then a + {m} else a;
    forall k ensures k in b <==> k in c {
    }
    assert b == c;
  }

  /** The filter of the first `n` questions keeps one question per matching position. */
  lemma {:induction false} MatchingIndicesCount(qs: seq<Question>, questionType: Nullable<string>, n: nat)
    requires n <= |qs|
    ensures |QuestionsByType(qs[..n], questionType)| == |MatchingIndices(qs, questionType, n)|
  {
    if n == 0 {
      assert MatchingIndices(qs, questionType, 0) == {};
    } else {
      MatchingIndicesCount(qs, questionType, n - 1);
      MatchingIndicesStep(qs, questionType, n);
      var prefix := qs[..n];
      assert prefix[..n - 1] == qs[..n - 1];
      var init := QuestionsByType(qs[..n - 1], questionType);
      if HasType(qs[n - 1], questionType) {
        assert QuestionsByType(prefix, questionType) == init + [prefix[n - 1]];
      } else {
        assert QuestionsByType(prefix, questionType) == init;
      }
    }
  }

  // ---------------------------------------------------------------------
  // Validation

  /** `isValid`: a non-blank title, at least one question, every question valid. */
  predicate IsValidQuiz(quiz: Quiz) {
    && quiz.title.NonNull? && !IsBlank(quiz.title.value)
    && |quiz.questions| > 0
    && forall i :: 0 <= i < |quiz.questions| ==> IsValid(quiz.questions[i])
  }

  /** The messages of `getValidationErrors`; `QuestionInvalid` carries the 1-based position. */
  datatype QuizError = TitleRequired | NoQuestions | QuestionInvalid(number: int)

  /** One `QuestionInvalid` per invalid question among the first `k`, in order. */
  function InvalidQuestionErrors(qs: seq<Question>, k: nat): (errors: seq<QuizError>)
    requires k <= |qs|
    ensures forall e :: e in errors <==> e.QuestionInvalid? && 1 <= e.number <= k && !IsValid(qs[e.number - 1])
    ensures (forall i :: 0 <= i < k ==> IsValid(qs[i])) ==> errors == []
  {
    if k == 0 then []
    else
      var errors := InvalidQuestionErrors(qs, k - 1) + (if !IsValid(qs[k - 1]) then [QuestionInvalid(k)] else []);
      errors
  }

  /** `getValidationErrors`. */
  function ValidationErrors(quiz: Quiz): seq<QuizError> {
    (if quiz.title.Null? || IsBlank(quiz.title.value) then [TitleRequired] else [])
    + (if |quiz.questions| == 0 then [NoQuestions] else InvalidQuestionErrors(quiz.questions, |quiz.questions|))
  }

  /**
   * The error list is empty exactly when the quiz is valid, and it names
   * precisely the invalid questions.
   */
  lemma ValidationErrorsAgreeWithIsValid(quiz: Quiz)
    ensures ValidationErrors(quiz) == [] <==> IsValidQuiz(quiz)
    ensures TitleRequired in ValidationErrors(quiz) <==> quiz.title.Null? || IsBlank(quiz.title.value)
    ensures NoQuestions in ValidationErrors(quiz) <==> |quiz.questions| == 0
    ensures forall k :: 1 <= k <= |quiz.questions| ==>
      (QuestionInvalid(k) in ValidationErrors(quiz) <==> !IsValid(quiz.questions[k - 1]))
  {
    var qs := quiz.questions;
    var errors := ValidationErrors(quiz);
    if !IsValidQuiz(quiz) && quiz.title.NonNull? && !IsBlank(quiz.title.value) && |qs| > 0 {
      var i :| 0 <= i < |qs| && !IsValid(qs[i]);
      assert QuestionInvalid(i + 1) in errors;
    }
  }

  /** Every question of a well-formed quiz is valid, so only the title and the count can make it invalid. */
  lemma WellFormedValidity(quiz: Quiz)
    requires WellFormed(quiz)
    ensures IsValidQuiz(quiz) <==> quiz.title.NonNull? && !IsBlank(quiz.title.value) && |quiz.questions| > 0
  {
  }

  lemma AllValidPermutation(a: seq<Question>, b: seq<Question>)
    requires multiset(a) == multiset(b)
    ensures (forall i :: 0 <= i < |a| ==> IsValid(a[i])) <==> (forall i :: 0 <= i < |b| ==> IsValid(b[i]))
  {
    assert forall q :: q in a <==> q in multiset(a);
    assert forall q :: q in b <==> q in multiset(b);
    assert |a| == |multiset(a)| == |b|;
    if forall i :: 0 <= i < |a| ==> IsValid(a[i]) {
      forall i | 0 <= i < |b| ensures IsValid(b[i]) {
        assert b[i] in b;
      }
    }
    if forall i :: 0 <= i < |b| ==> IsValid(b[i]) {
      forall i | 0 <= i < |a| ensures IsValid(a[i]) {
        assert a[i] in a;
      }
    }
  }

  // ---------------------------------------------------------------------
  // Cloning

  /** The questions of `qs` that pass `isValid`, in order. */
  function KeepValid(qs: seq<Question>): (r: seq<Question>)
    ensures |r| <= |qs|
    ensures forall k :: 0 <= k < |r| ==> IsValid(r[k])
  {
    if |qs| == 0 then []
    else (if IsValid(qs[0]) then [qs[0]] else []) + KeepValid(qs[1..])
  }

  /** `question.clone()` applied to each question of the list. */
  function Clones(qs: seq<Question>): (r: seq<Question>)
    ensures |r| == |qs| && forall k :: 0 <= k < |qs| ==> r[k] == Clone(qs[k])
  {
    seq(|qs|, k requires 0 <= k < |qs| => Clone(qs[k]))
  }

  /** Filtering keeps a list of valid questions whole. */
  lemma {:induction false} KeepValidOfValid(qs: seq<Question>)
    ensures (forall k :: 0 <= k < |qs| ==> IsValid(qs[k])) ==> KeepValid(qs) == qs
    decreases |qs|
  {
    if |qs| > 0 && forall k :: 0 <= k < |qs| ==> IsValid(qs[k]) {
      KeepValidOfValid(qs[1..]);
      assert qs == [qs[0]] + qs[1..];
    }
  }

  /** A valid question's clone is the question itself, so the clones of valid questions are the list. */
  lemma ClonesOfValid(qs: seq<Question>)
    ensures (forall k :: 0 <= k < |qs| ==> IsValid(qs[k])) ==> Clones(qs) == qs
  {
    forall k | 0 <= k < |qs|
      ensures IsValid(qs[k]) ==> Clones(qs)[k] == qs[k]
    {
      CloneOfValid(qs[k]);
    }
  }

  /** The source's loop: `addQuestion` for each question in turn. */
  function AddEach(quiz: Quiz, qs: seq<Question>): Quiz
    decreases |qs|
  {
    if |qs| == 0 then quiz
    else AddEach(AddQuestion(quiz, NonNull(qs[0])).0, qs[1..])
  }

  /** Adding the clones one by one touches nothing but the question list. */
  lemma {:induction false} AddEachKeepsSettings(quiz: Quiz, qs: seq<Question>)
    ensures SameSettings(quiz, AddEach(quiz, qs))
    decreases |qs|
  {
    if |qs| > 0 {
      AddEachKeepsSettings(AddQuestion(quiz, NonNull(qs[0])).0, qs[1..]);
    }
  }

  /** Adding questions one by one appends exactly the valid ones, in order. */
  lemma {:induction false} AddEachAppendsValid(quiz: Quiz, qs: seq<Question>)
    ensures AddEach(quiz, qs).questions == quiz.questions + KeepValid(qs)
    decreases |qs|
  {
    if |qs| == 0 {
      assert quiz.questions + [] == quiz.questions;
    } else {
      var next := AddQuestion(quiz, NonNull(qs[0])).0;
      AddEachAppendsValid(next, qs[1..]);
      var kept := if IsValid(qs[0]) then [qs[0]] else [];
      assert next.questions == quiz.questions + kept;
      assert (quiz.questions + kept) + KeepValid(qs[1..]) == quiz.questions + (kept + KeepValid(qs[1..]));
    }
  }

  /**
   * `clone`: a new quiz (with a fresh id) carrying the same settings and the
   * clones of the questions that pass `isValid`, in order.
   */
  function CloneQuiz(quiz: Quiz, freshId: string): (r: Quiz)
    ensures r.id == freshId
    ensures r == quiz.(id := freshId, questions := r.questions)
    ensures r.questions == KeepValid(Clones(quiz.questions))
    ensures (forall k :: 0 <= k < |quiz.questions| ==> IsValid(quiz.questions[k])) ==> r.questions == quiz.questions
    ensures IsValidQuiz(quiz) ==> IsValidQuiz(r) && |r.questions| == |quiz.questions|
    ensures WellFormed(quiz) ==> WellFormed(r)
  {
    var base := NewFullQuiz(freshId, quiz.title, quiz.description, quiz.createdBy, quiz.timeLimit)
      .(passingPercentage := quiz.passingPercentage, isActive := quiz.isActive);
    var clones := Clones(quiz.questions);
    AddEachKeepsSettings(base, clones);
    AddEachAppendsValid(base, clones);
    ClonesOfValid(quiz.questions);
    KeepValidOfValid(quiz.questions);
    AddEach(base, clones)
  }

  // ---------------------------------------------------------------------
  // Time

  /** `hasTimeLimit`: a limit of 0 minutes means none. */
  predicate HasTimeLimit(quiz: Quiz) {
    quiz.timeLimit > 0
  }

  /**
   * A fresh quiz has no limit; after `setTimeLimit` the quiz has one exactly
   * when the value was accepted and positive; question edits never change it.
   */
  lemma TimeLimitSetting(quiz: Quiz, id: string, minutes: int, question: Nullable<Question>)
    ensures !HasTimeLimit(NewQuiz(id))
    ensures HasTimeLimit(SetTimeLimit(quiz, minutes)) <==> minutes > 0 || (minutes < 0 && HasTimeLimit(quiz))
    ensures HasTimeLimit(AddQuestion(quiz, question).0) <==> HasTimeLimit(quiz)
    ensures HasTimeLimit(ClearQuestions(quiz)) <==> HasTimeLimit(quiz)
  {
  }

  /** `getEstimatedTime`: whole minutes for the questions at the given pace, truncated toward zero. */
  function EstimatedTime(quiz: Quiz, secondsPerQuestion: int): (minutes: int)
    ensures var total := |quiz.questions| * secondsPerQuestion;
      (total >= 0 ==> 0 <= minutes && 60 * minutes <= total < 60 * minutes + 60)
      && (total < 0 ==> minutes <= 0 && 60 * minutes - 60 < total <= 60 * minutes)
  {
    Div(|quiz.questions| * secondsPerQuestion, 60)
  }
}

=== FILE: result.dfy ===
/**
 * One attempt at a quiz: the answers a student gives, and the grading that
 * turns them into marks, a percentage, a pass/fail verdict and a letter grade.
 */
module Results {
  import opened JavaLang
  import opened Text
  import opened Questions
  import opened Quizzes

  /**
   * A quiz attempt. `questions` is the snapshot taken when the attempt
   * starts and `totalMarks` the quiz total at that moment. `studentAnswers`
   * maps a question index to the raw answer given (a recorded answer may
   * itself be null); `answerCorrectness` is filled in by `CalculateResult`.
   */
  datatype Result = Result(
    id: string,
    quizId: Nullable<string>,
    quizTitle: Nullable<string>,
    studentName: Nullable<string>,
    studentId: Nullable<string>,
    totalMarks: int,
    marksObtained: int,
    percentage: real,
    passed: bool,
    timeTaken: int,
    studentAnswers: map<int, Nullable<string>>,
    answerCorrectness: map<int, bool>,
    questions: seq<Question>)

  /** The total stored with the attempt is the total of its own snapshot. */
  predicate Consistent(r: Result) {
    r.totalMarks == TotalMarks(r.questions)
  }

  // ---------------------------------------------------------------------
  // Construction

  /** The no-argument constructor: empty strings, zeros, no answers, no questions. */
  function NewResult(id: string): (r: Result)
    ensures r.id == id && r.questions == [] && r.totalMarks == 0
    ensures r.studentAnswers == map[] && r.answerCorrectness == map[]
    ensures r.marksObtained == 0 && r.percentage == 0.0 && !r.passed && r.timeTaken == 0
    ensures Consistent(r)
  {
    Result(id, NonNull(""), NonNull(""), NonNull(""), NonNull(""), 0, 0, 0.0, false, 0, map[], map[], [])
  }

  /**
   * The (quiz, name, id) constructor. A non-null quiz contributes its id,
   * title, current total and a copy of its question list; a null quiz
   * leaves the defaults. The student fields are stored as given.
   */
  function StartAttempt(id: string, quiz: Nullable<Quiz>, studentName: Nullable<string>,
                        studentId: Nullable<string>): (r: Result)
    ensures r.id == id && r.studentName == studentName && r.studentId == studentId
    ensures quiz.NonNull? ==>
      r.quizId == NonNull(QuizId(quiz.value)) && r.quizTitle == quiz.value.title && r.questions == quiz.value.questions
    ensures quiz.Null? ==> r.quizId == NonNull("") && r.quizTitle == NonNull("") && r.questions == []
    ensures r.studentAnswers == map[] && r.answerCorrectness == map[]
    ensures r.marksObtained == 0 && r.percentage == 0.0 && !r.passed
    ensures Consistent(r)
  {
    var r := NewResult(id);
    var r := if quiz.Null? then r
      else r.(quizId := NonNull(QuizId(quiz.value)), quizTitle := quiz.value.title,
              totalMarks := TotalMarks(quiz.value.questions), questions := quiz.value.questions);
    r.(studentName := studentName, studentId := studentId)
  }

  // ---------------------------------------------------------------------
  // Answers

  /** `recordAnswer`: stores (or overwrites) the answer for one index. */
  function RecordAnswer(r: Result, index: int, answer: Nullable<string>): (r': Result)
    ensures r'.studentAnswers.Keys == r.studentAnswers.Keys + {index}
    ensures index in r'.studentAnswers && r'.studentAnswers[index] == answer
    ensures forall j :: j in r.studentAnswers && j != index ==> r'.studentAnswers[j] == r.studentAnswers[j]
    ensures r' == r.(studentAnswers := r'.studentAnswers)
  {
    r.(studentAnswers := r.studentAnswers[index := answer])
  }

  /** `getAnswer`: the recorded answer, or null when none was recorded. */
  function GetAnswer(r: Result, index: int): (a: Nullable<string>)
    ensures index !in r.studentAnswers ==> a.Null?
    ensures a.NonNull? ==> IsQuestionAnswered(r, index)
  {
    if index in r.studentAnswers then r.studentAnswers[index] else Null
  }

  /** `isQuestionAnswered`: an answer (possibly null) was recorded. */
  predicate IsQuestionAnswered(r: Result, index: int) {
    index in r.studentAnswers
  }

  /** `getAnsweredCount`: the number of indices with a recorded answer. */
  function AnsweredCount(r: Result): (n: int)
    ensures n == |r.studentAnswers.Keys| && n >= 0
    ensures n == 0 <==> forall i :: !IsQuestionAnswered(r, i)
  {
    assert |r.studentAnswers| > 0 ==> exists i :: IsQuestionAnswered(r, i) by {
      if |r.studentAnswers| > 0 {
        NonEmptyHasKey(r.studentAnswers);
        var i :| i in r.studentAnswers;
        assert IsQuestionAnswered(r, i);
      }
    }
    |r.studentAnswers|
  }

  /** A map with no keys is the empty map, so a non-empty one has a key. */
  lemma NonEmptyHasKey<V>(m: map<int, V>)
    requires |m| > 0
    ensures exists i :: i in m
  {
    if forall i :: i !in m {
      assert false;
    }
  }

  /**
   * `getUnansweredCount`: the snapshot size less the answered count. When
   * every recorded answer is at a snapshot index, it counts exactly the
   * snapshot indices without an answer; otherwise it may go negative.
   */
  function UnansweredCount(r: Result): (n: int)
    ensures n + AnsweredCount(r) == |r.questions|
    ensures (forall i :: i in r.studentAnswers ==> 0 <= i < |r.questions|) ==>
      n >= 0 && n == |set i | 0 <= i < |r.questions| && !IsQuestionAnswered(r, i)|
  {
    assert (forall i :: i in r.studentAnswers ==> 0 <= i < |r.questions|) ==>
      |r.questions| == |r.studentAnswers| + |set i | 0 <= i < |r.questions| && !IsQuestionAnswered(r, i)| by {
      if forall i :: i in r.studentAnswers ==> 0 <= i < |r.questions| {
        MissingIndicesCount(r);
      }
    }
    |r.questions| - |r.studentAnswers|
  }

  /** Snapshot indices split into the answered and the unanswered ones. */
  lemma MissingIndicesCount(r: Result)
    requires forall i :: i in r.studentAnswers ==> 0 <= i < |r.questions|
    ensures |r.questions| == |r.studentAnswers| + |set i | 0 <= i < |r.questions| && !IsQuestionAnswered(r, i)|
  {
    var all := Indices(|r.questions|);
    var keys := r.studentAnswers.Keys;
    var missing := set i | 0 <= i < |r.questions| && !IsQuestionAnswered(r, i);
    assert all == missing + keys;
    assert missing * keys == {};
  }

  /** Reading back a recorded answer gives it; other indices are untouched. */
  lemma RecordThenGet(r: Result, index: int, answer: Nullable<string>, other: int)
    ensures GetAnswer(RecordAnswer(r, index, answer), index) == answer
    ensures other != index ==> GetAnswer(RecordAnswer(r, index, answer), other) == GetAnswer(r, other)
    ensures IsQuestionAnswered(RecordAnswer(r, index, answer), index)
  {
  }

  /** Recording counts a new index once and re-recording does not count again. */
  lemma RecordCounts(r: Result, index: int, answer: Nullable<string>)
    ensures index in r.studentAnswers ==> AnsweredCount(RecordAnswer(r, index, answer)) == AnsweredCount(r)
    ensures index !in r.studentAnswers ==> AnsweredCount(RecordAnswer(r, index, answer)) == AnsweredCount(r) + 1
    ensures Consistent(r) ==> Consistent(RecordAnswer(r, index, answer))
  {
    var r' := RecordAnswer(r, index, answer);
    if index in r.studentAnswers {
      assert r'.studentAnswers.Keys == r.studentAnswers.Keys;
    } else {
      assert r'.studentAnswers.Keys == r.studentAnswers.Keys + {index};
    }
  }

  // ---------------------------------------------------------------------
  // Grading

  /** Question `i` of the snapshot has a non-null recorded answer that `checkAnswer` accepts. */
  predicate AnsweredCorrectly(qs: seq<Question>, answers: map<int, Nullable<string>>, i: int)
    requires 0 <= i < |qs|
  {
    i in answers && answers[i].NonNull? && CheckAnswer(qs[i], answers[i])
  }

  /** The marks question `i` earns: its own marks when answered correctly, nothing otherwise. */
  function EarnedAt(qs: seq<Question>, answers: map<int, Nullable<string>>, i: int): int
    requires 0 <= i < |qs|
  {
    if AnsweredCorrectly(qs, answers, i) then qs[i].marks else 0
  }

  /** The identity on marks: the term function `SumOf` needs for a sequence of numbers. */
  function Plain(x: int): int {
    x
  }

  /** The marks earned on questions `[0, k)`: the sum of `EarnedAt` over those indices. */
  function Earned(qs: seq<Question>, answers: map<int, Nullable<string>>, k: nat): int
    requires k <= |qs|
  {
    SumOf(seq(k, i requires 0 <= i < k => EarnedAt(qs, answers, i)), Plain)
  }

  /** One more index adds exactly what that question earns. */
  lemma EarnedStep(qs: seq<Question>, answers: map<int, Nullable<string>>, k: nat)
    requires 0 < k <= |qs|
    ensures Earned(qs, answers, k) == Earned(qs, answers, k - 1) + EarnedAt(qs, answers, k - 1)
  {
    var s := seq(k, i requires 0 <= i < k => EarnedAt(qs, answers, i));
    assert s[..k - 1] == seq(k - 1, i requires 0 <= i < k - 1 => EarnedAt(qs, answers, i));
  }

  /**
   * The grading loop over indices `[0, k)`: the correctness entry of every
   * index and the marks of the correctly answered ones.
   */
  function Tally(qs: seq<Question>, answers: map<int, Nullable<string>>, k: nat): (t: (map<int, bool>, int))
    requires k <= |qs|
    ensures forall i :: i in t.0 <==> 0 <= i < k
    ensures forall i :: 0 <= i < k ==> (t.0[i] <==> AnsweredCorrectly(qs, answers, i))
    ensures t.1 == Earned(qs, answers, k)
    ensures (forall i :: 0 <= i < k ==> qs[i].marks >= 0) ==> 0 <= t.1 <= TotalMarks(qs[..k])
    ensures (forall i :: 0 <= i < k ==> AnsweredCorrectly(qs, answers, i)) ==> t.1 == TotalMarks(qs[..k])
    ensures (forall i :: 0 <= i < k ==> !AnsweredCorrectly(qs, answers, i)) ==> t.1 == 0
    decreases k
  {
    if k == 0 then (map[], 0)
    else
      var prev := Tally(qs, answers, k - 1);
      var ok := AnsweredCorrectly(qs, answers, k - 1);
      assert TotalMarks(qs[..k]) == TotalMarks(qs[..k - 1]) + qs[k - 1].marks by {
        assert qs[..k - 1] + [qs[k - 1]] == qs[..k];
        TotalMarksAppend(qs[..k - 1], [qs[k - 1]]);
      }
      EarnedStep(qs, answers, k);
      (prev.0[k - 1 := ok], prev.1 + if ok then qs[k - 1].marks else 0)
  }

  /** The percentage rule: zero when the total is not positive. */
  function Percentage(obtained: int, total: int): (p: real)
    ensures total <= 0 ==> p == 0.0
    ensures total > 0 ==> p * total as real == 100.0 * obtained as real
    ensures total > 0 && 0 <= obtained <= total ==> 0.0 <= p <= 100.0
  {
    if total > 0 then obtained as real / total as real * 100.0 else 0.0
  }

  /**
   * `calculateResult`: re-grades every snapshot index from the recorded
   * answers, then derives the percentage against the stored total and the
   * inclusive pass verdict. Nothing else changes.
   */
  function CalculateResult(r: Result, passingPercentage: int): (g: Result)
    ensures g == r.(marksObtained := g.marksObtained, percentage := g.percentage,
                    passed := g.passed, answerCorrectness := g.answerCorrectness)
    ensures forall i :: i in g.answerCorrectness <==> 0 <= i < |r.questions|
    ensures forall i :: 0 <= i < |r.questions| ==>
      (g.answerCorrectness[i] <==> AnsweredCorrectly(r.questions, r.studentAnswers, i))
    ensures g.marksObtained == Earned(r.questions, r.studentAnswers, |r.questions|)
    ensures (forall i :: 0 <= i < |r.questions| ==> r.questions[i].marks >= 0) ==>
      0 <= g.marksObtained <= TotalMarks(r.questions)
    ensures g.percentage == Percentage(g.marksObtained, r.totalMarks)
    ensures g.passed <==> g.percentage >= passingPercentage as real
    ensures Consistent(g) <==> Consistent(r)
  {
    var t := Tally(r.questions, r.studentAnswers, |r.questions|);
    assert r.questions[..|r.questions|] == r.questions;
    var p := Percentage(t.1, r.totalMarks);
    r.(marksObtained := t.1, percentage := p, passed := p >= passingPercentage as real, answerCorrectness := t.0)
  }

  /** Grading depends only on the snapshot and the answers, so grading twice changes nothing. */
  lemma CalculateResultIdempotent(r: Result, passingPercentage: int)
    ensures CalculateResult(CalculateResult(r, passingPercentage), passingPercentage)
      == CalculateResult(r, passingPercentage)
  {
  }

  /**
   * With a positive total the verdict is the integer comparison
   * `100 * obtained >= passingPercentage * total`: exact, inclusive.
   */
  lemma PassedIffThreshold(r: Result, passingPercentage: int)
    requires r.totalMarks > 0
    ensures var g := CalculateResult(r, passingPercentage);
      g.passed <==> 100 * g.marksObtained >= passingPercentage * r.totalMarks
  {
    var g := CalculateResult(r, passingPercentage);
    PassVerdict(g.marksObtained, r.totalMarks, passingPercentage);
  }

  lemma PassVerdict(obtained: int, total: int, passingPercentage: int)
    requires total > 0
    ensures Percentage(obtained, total) >= passingPercentage as real <==> 100 * obtained >= passingPercentage * total
  {
    var p := Percentage(obtained, total);
    ScaledComparison(p, passingPercentage as real, total as real);
    assert (100 * obtained) as real == 100.0 * obtained as real;
    assert (passingPercentage * total) as real == passingPercentage as real * total as real;
  }

  /** Comparing a ratio with a threshold is comparing the scaled values. */
  lemma ScaledComparison(p: real, threshold: real, t: real)
    requires t > 0.0
    ensures p >= threshold <==> p * t >= threshold * t
  {
    if p >= threshold {
      assert (p - threshold) * t >= 0.0;
    } else {
      assert (threshold - p) * t > 0.0;
    }
  }

  /** With a non-positive total nobody reaches a positive threshold. */
  lemma ZeroTotalFails(r: Result, passingPercentage: int)
    requires r.totalMarks <= 0
    ensures CalculateResult(r, passingPercentage).percentage == 0.0
    ensures CalculateResult(r, passingPercentage).passed <==> passingPercentage <= 0
  {
  }

  /** Scoring exactly the passing percentage passes. */
  lemma ExactThresholdPasses(r: Result, passingPercentage: int)
    requires r.totalMarks > 0
    requires 100 * CalculateResult(r, passingPercentage).marksObtained == passingPercentage * r.totalMarks
    ensures CalculateResult(r, passingPercentage).passed
  {
    PassedIffThreshold(r, passingPercentage);
  }

  /**
   * For an attempt started from a quiz whose marks are all non-negative
   * (every valid quiz), the percentage lies in [0, 100].
   */
  lemma PercentageBounds(r: Result, passingPercentage: int)
    requires Consistent(r)
    requires forall i :: 0 <= i < |r.questions| ==> r.questions[i].marks >= 0
    ensures var g := CalculateResult(r, passingPercentage);
      0 <= g.marksObtained <= g.totalMarks && (g.totalMarks > 0 ==> 0.0 <= g.percentage <= 100.0)
  {
  }

  // ---------------------------------------------------------------------
  // The worked example: one Multiple-Choice question worth one mark, pass at 50%

  function SampleQuestion(): Question {
    MultipleChoice(NonNull("2+2=?"), 1, NonNull("4"), ["3", "4", "5"])
  }

  function SampleAttempt(answers: map<int, Nullable<string>>): Result {
    var quiz := NewQuiz("quiz").(questions := [SampleQuestion()]);
    StartAttempt("attempt", NonNull(quiz), NonNull("student"), NonNull("")).(studentAnswers := answers)
  }

  /** The sample attempt earns its one mark exactly when its one answer is accepted. */
  lemma SampleGrading(answers: map<int, Nullable<string>>)
    ensures var g := CalculateResult(SampleAttempt(answers), 50);
      var ok := AnsweredCorrectly([SampleQuestion()], answers, 0);
      && g.answerCorrectness == map[0 := ok]
      && g.marksObtained == (if ok then 1 else 0)
      && g.percentage == (if ok then 100.0 else 0.0)
      && (g.passed <==> ok)
  {
    var r := SampleAttempt(answers);
    assert r.questions == [SampleQuestion()];
    assert r.totalMarks == 1 by {
      assert [SampleQuestion()][..0] == [];
    }
    var g := CalculateResult(r, 50);
    assert g.answerCorrectness.Keys == {0};
  }

  /** Answering "4" earns the mark: 100%, passed, the only entry is true. */
  lemma SampleCorrectAnswer()
    ensures var g := CalculateResult(SampleAttempt(map[0 := NonNull("4")]), 50);
      g.marksObtained == 1 && g.percentage == 100.0 && g.passed && g.answerCorrectness == map[0 := true]
  {
    SampleGrading(map[0 := NonNull("4")]);
    assert AnsweredCorrectly([SampleQuestion()], map[0 := NonNull("4")], 0) by {
      TrimOfTrimmed("4");
    }
  }

  /** Answering "3" earns nothing: 0%, failed. */
  lemma SampleWrongAnswer()
    ensures var g := CalculateResult(SampleAttempt(map[0 := NonNull("3")]), 50);
      g.marksObtained == 0 && g.percentage == 0.0 && !g.passed && g.answerCorrectness == map[0 := false]
  {
    SampleGrading(map[0 := NonNull("3")]);
    assert !AnsweredCorrectly([SampleQuestion()], map[0 := NonNull("3")], 0) by {
      TrimOfTrimmed("3");
      TrimOfTrimmed("4");
      assert ToLower("3")[0] == '3' && ToLower("4")[0] == '4';
    }
  }

  /** Skipping the question leaves it unanswered and marked false, and the attempt fails. */
  lemma SampleSkipped()
    ensures UnansweredCount(SampleAttempt(map[])) == 1
    ensures var g := CalculateResult(SampleAttempt(map[]), 50);
      g.marksObtained == 0 && !g.passed && g.answerCorrectness == map[0 := false]
  {
    SampleGrading(map[]);
  }

  function TwoQuestions(): seq<Question> {
    [ShortAnswer(NonNull("a?"), 1, NonNull("x"), true), ShortAnswer(NonNull("b?"), 5, NonNull("y"), true)]
  }

  function PartialAnswers(): map<int, Nullable<string>> {
    map[0 := NonNull("x"), 1 := NonNull("z")]
  }

  /** "x" is the first question's answer; "z" is not the second's "y". */
  lemma PartialCreditVerdicts()
    ensures AnsweredCorrectly(TwoQuestions(), PartialAnswers(), 0)
    ensures !AnsweredCorrectly(TwoQuestions(), PartialAnswers(), 1)
  {
    TrimOfTrimmed("x");
    TrimOfTrimmed("y");
    TrimOfTrimmed("z");
    assert "z"[0] != "y"[0];
  }

  lemma PartialCreditEarned()
    ensures Earned(TwoQuestions(), PartialAnswers(), 2) == 1
  {
    PartialCreditVerdicts();
    EarnedStep(TwoQuestions(), PartialAnswers(), 1);
    EarnedStep(TwoQuestions(), PartialAnswers(), 2);
  }

  /**
   * Marks are earned question by question: right on the 1-mark question and
   * wrong on the 5-mark one earns exactly 1 of the 6 marks, and fails.
   */
  lemma PartialCredit()
    ensures var answers := map[0 := NonNull("x"), 1 := NonNull("z")];
      var r := NewResult("attempt").(questions := TwoQuestions(), totalMarks := 6, studentAnswers := answers);
      var g := CalculateResult(r, 50);
      g.marksObtained == 1 && !g.passed && g.answerCorrectness == map[0 := true, 1 := false]
  {
    PartialCreditVerdicts();
    PartialCreditEarned();
    var r := NewResult("attempt").(questions := TwoQuestions(), totalMarks := 6, studentAnswers := PartialAnswers());
    var g := CalculateResult(r, 50);
    assert g.answerCorrectness.Keys == {0, 1};
  }

  // ---------------------------------------------------------------------
  // Counts and per-question verdicts

  /** `getCorrectAnswersCount`: the number of true entries of the correctness map. */
  function CorrectAnswersCount(r: Result): (n: nat)
    ensures n <= |r.answerCorrectness|
  {
    var correct := set i | i in r.answerCorrectness && r.answerCorrectness[i];
    SubsetCardinality(correct, r.answerCorrectness.Keys);
    |correct|
  }

  /**
   * After grading, the correct-answers count is the number of snapshot
   * questions whose answer the question itself accepts.
   */
  lemma CorrectAnswersCountAfterGrading(r: Result, passingPercentage: int)
    ensures CorrectAnswersCount(CalculateResult(r, passingPercentage))
      == |set i | 0 <= i < |r.questions| && AnsweredCorrectly(r.questions, r.studentAnswers, i)|
  {
    var g := CalculateResult(r, passingPercentage);
    assert (set i | i in g.answerCorrectness && g.answerCorrectness[i])
      == (set i | 0 <= i < |r.questions| && AnsweredCorrectly(r.questions, r.studentAnswers, i));
  }

  /**
   * `getIncorrectAnswersCount`: answered less correct. When every index
   * marked correct was answered (as grading guarantees), it counts exactly
   * the answered indices not marked correct.
   */
  function IncorrectAnswersCount(r: Result): (n: int)
    ensures n + CorrectAnswersCount(r) == AnsweredCount(r)
    ensures (forall i :: IsAnswerCorrect(r, i) ==> IsQuestionAnswered(r, i)) ==>
      n >= 0 && n == |set i | i in r.studentAnswers && !IsAnswerCorrect(r, i)|
  {
    assert (forall i :: IsAnswerCorrect(r, i) ==> IsQuestionAnswered(r, i)) ==>
      AnsweredCount(r) == CorrectAnswersCount(r) + |set i | i in r.studentAnswers && !IsAnswerCorrect(r, i)| by {
      if forall i :: IsAnswerCorrect(r, i) ==> IsQuestionAnswered(r, i) {
        WrongAnswersCount(r);
      }
    }
    AnsweredCount(r) - CorrectAnswersCount(r)
  }

  /** When only answered indices are marked correct, the answered ones split into correct and not. */
  lemma WrongAnswersCount(r: Result)
    requires forall i :: IsAnswerCorrect(r, i) ==> IsQuestionAnswered(r, i)
    ensures AnsweredCount(r) == CorrectAnswersCount(r) + |set i | i in r.studentAnswers && !IsAnswerCorrect(r, i)|
  {
    var keys := r.studentAnswers.Keys;
    var correct := set i | i in r.answerCorrectness && r.answerCorrectness[i];
    var wrong := set i | i in r.studentAnswers && !IsAnswerCorrect(r, i);
    forall i | i in correct
      ensures i in keys
    {
      assert IsAnswerCorrect(r, i);
    }
    assert wrong == keys - correct;
  }

  /** `isAnswerCorrect`: a missing entry reads as false. */
  predicate IsAnswerCorrect(r: Result, index: int) {
    index in r.answerCorrectness && r.answerCorrectness[index]
  }

  lemma {:induction false} SubsetCardinality<T>(a: set<T>, b: set<T>)
    requires a <= b
    ensures |a| <= |b|
    decreases |b|
  {
    if a != {} {
      var x :| x in a;
      SubsetCardinality(a - {x}, b - {x});
    }
  }

  /** After grading, the verdict for an index is the answer-checking rule applied to its answer. */
  lemma IsAnswerCorrectAfterGrading(r: Result, passingPercentage: int, index: int)
    ensures IsAnswerCorrect(CalculateResult(r, passingPercentage), index) <==>
      0 <= index < |r.questions| && AnsweredCorrectly(r.questions, r.studentAnswers, index)
  {
  }

  /**
   * After grading, only answered questions can be correct, so the correct
   * count never exceeds the answered count and the incorrect count is not
   * negative.
   */
  lemma CorrectAtMostAnswered(r: Result, passingPercentage: int)
    ensures var g := CalculateResult(r, passingPercentage);
      CorrectAnswersCount(g) <= AnsweredCount(g) && IncorrectAnswersCount(g) >= 0
  {
    var g := CalculateResult(r, passingPercentage);
    var correct := set i | i in g.answerCorrectness && g.answerCorrectness[i];
    assert correct <= g.studentAnswers.Keys;
    SubsetCardinality(correct, g.studentAnswers.Keys);
  }

  function Indices(n: nat): (s: set<int>)
    ensures forall i :: i in s <==> 0 <= i < n
    ensures |s| == n
  {
    if n == 0 then {} else Indices(n - 1) + {n - 1}
  }

  // ---------------------------------------------------------------------
  // Grade and validity

  /** `getGrade`: the bands are tested from the top, each inclusive at its lower bound. */
  function LetterGrade(percentage: real): (g: string)
    ensures g == "A" <==> percentage >= 90.0
    ensures g == "B" <==> 80.0 <= percentage < 90.0
    ensures g == "C" <==> 70.0 <= percentage < 80.0
    ensures g == "D" <==> 60.0 <= percentage < 70.0
    ensures g == "F" <==> percentage < 60.0
  {
    if percentage >= 90.0 then "A"
    else if percentage >= 80.0 then "B"
    else if percentage >= 70.0 then "C"
    else if percentage >= 60.0 then "D"
    else "F"
  }

  function Grade(r: Result): string {
    LetterGrade(r.percentage)
  }

  /** The position of a letter in the order F < D < C < B < A. */
  function GradeRank(g: string): int {
    if g == "A" then 4 else if g == "B" then 3 else if g == "C" then 2 else if g == "D" then 1 else 0
  }

  /** A higher percentage never earns a lower grade. */
  lemma GradeMonotone(p: real, q: real)
    requires p <= q
    ensures GradeRank(LetterGrade(p)) <= GradeRank(LetterGrade(q))
  {
  }

  /** `isValid`: a named student, a quiz id, and a positive total. */
  predicate IsValidResult(r: Result) {
    && r.studentName.NonNull? && |r.studentName.value| > 0
    && r.quizId.NonNull? && |r.quizId.value| > 0
    && r.totalMarks > 0
  }

  /**
   * An attempt is valid exactly when it was started from a quiz with a
   * non-empty id and a positive total, by a student with a non-empty name.
   */
  lemma StartAttemptValidity(id: string, quiz: Nullable<Quiz>, studentName: Nullable<string>,
                             studentId: Nullable<string>)
    ensures IsValidResult(StartAttempt(id, quiz, studentName, studentId)) <==>
      && quiz.NonNull? && |quiz.value.id| > 0 && TotalMarks(quiz.value.questions) > 0
      && studentName.NonNull? && |studentName.value| > 0
  {
  }

  /** A valid quiz always yields a positive total, so only the names can make an attempt invalid. */
  lemma StartAttemptFromValidQuiz(id: string, quiz: Quiz, studentName: Nullable<string>,
                                  studentId: Nullable<string>)
    requires IsValidQuiz(quiz)
    ensures IsValidResult(StartAttempt(id, NonNull(quiz), studentName, studentId)) <==>
      |quiz.id| > 0 && studentName.NonNull? && |studentName.value| > 0
  {
    forall i | 0 <= i < |quiz.questions| ensures quiz.questions[i].marks > 0 {
      ValidQuestionFacts(quiz.questions[i]);
    }
    TotalMarksBounds(quiz.questions);
  }

  // ---------------------------------------------------------------------
  // Time formatting

  /**
   * `formatTime`: "<m>m <s>s" once there is at least one whole minute,
   * otherwise "<seconds>s" (which is how negative times are printed).
   */
  function FormatTime(seconds: int): (text: string)
    ensures seconds >= 60 ==> exists m: nat, s: nat ::
      (m >= 1 && s < 60 && 60 * m + s == seconds && text == NatToDecimal(m) + "m " + NatToDecimal(s) + "s")
    ensures seconds < 60 ==> text == IntToDecimal(seconds) + "s"
  {
    var minutes := Div(seconds, 60);
    var remaining := Rem(seconds, 60);
    if minutes > 0 then IntToDecimal(minutes) + "m " + IntToDecimal(remaining) + "s"
    else IntToDecimal(seconds) + "s"
  }

  /** Reading the two numbers back out of the "<m>m <s>s" form recovers the seconds. */
  lemma FormatTimeReadsBack(seconds: int)
    requires seconds >= 60
    ensures var text := FormatTime(seconds);
      var m := NatToDecimal(seconds / 60);
      var s := NatToDecimal(seconds % 60);
      text == m + "m " + s + "s" && 60 * DecimalValue(m) + DecimalValue(s) == seconds
  {
    DecimalRoundTrip(seconds / 60);
    DecimalRoundTrip(seconds % 60);
  }
}

=== FILE: text.dfy ===
/**
 * The string operations of java.lang.String that the quiz rules use:
 * `trim`, ASCII `toLowerCase`/`toUpperCase`, `equalsIgnoreCase`, the regex
 * class `\s`, and decimal formatting of integers.
 */
module Text {

  /** `String.trim` removes every character whose code is at most U+0020. */
  predicate IsTrimmable(c: char) {
    c <= ' '
  }

  /** The characters matched by the regex class `\s`: [ \t\n\x0B\f\r]. */
  predicate IsRegexSpace(c: char) {
    c == ' ' || c == '\t' || c == '\n' || c == '\U{B}' || c == '\U{C}' || c == '\r'
  }

  /** Index of the first character `trim` keeps (|s| when it keeps none). */
  function TrimStart(s: string): (i: nat)
    ensures i <= |s|
    ensures forall k :: 0 <= k < i ==> IsTrimmable(s[k])
    ensures i < |s| ==> !IsTrimmable(s[i])
  {
    if |s| == 0 || !IsTrimmable(s[0]) then 0 else 1 + TrimStart(s[1..])
  }

  /** Length of `s` once its trailing trimmable characters are dropped. */
  function TrimEnd(s: string): (j: nat)
    ensures j <= |s|
    ensures forall k :: j <= k < |s| ==> IsTrimmable(s[k])
    ensures j > 0 ==> !IsTrimmable(s[j - 1])
  {
    if |s| == 0 || !IsTrimmable(s[|s| - 1]) then |s| else TrimEnd(s[..|s| - 1])
  }

  /**
   * `String.trim`: the longest slice of `s` that neither starts nor ends with
   * a character at or below U+0020.
   */
  function Trim(s: string): (r: string)
    ensures |r| <= |s|
    ensures |r| > 0 ==> !IsTrimmable(r[0]) && !IsTrimmable(r[|r| - 1])
    ensures |r| == 0 <==> IsBlank(s)
    ensures TrimStart(s) + |r| <= |s| && r == s[TrimStart(s)..TrimStart(s) + |r|]
    ensures forall k :: TrimStart(s) + |r| <= k < |s| ==> IsTrimmable(s[k])
  {
    var t := s[TrimStart(s)..];
    assert |t| > 0 ==> !IsTrimmable(t[0]);
    var r := t[..TrimEnd(t)];
    assert r == s[TrimStart(s)..TrimStart(s) + |r|];
    r
  }

  /** The string holds only trimmable characters, so `s.trim().isEmpty()` (see `Trim`). */
  predicate IsBlank(s: string) {
    forall k :: 0 <= k < |s| ==> IsTrimmable(s[k])
  }

  /**
   * The UTF-16 code units a character takes: a character above U+FFFF is a
   * surrogate pair.
   */
  function Utf16Units(c: char): nat {
    if c > '\U{FFFF}' then 2 else 1
  }

  /** `String.length`: Java counts UTF-16 code units, not characters. */
  function Utf16Length(s: string): (n: nat)
    ensures |s| <= n <= 2 * |s|
    ensures (forall k :: 0 <= k < |s| ==> s[k] <= '\U{FFFF}') ==> n == |s|
    ensures n == |s| ==> forall k :: 0 <= k < |s| ==> s[k] <= '\U{FFFF}'
  {
    if |s| == 0 then 0 else Utf16Units(s[0]) + Utf16Length(s[1..])
  }

  /** Lengths add over concatenation. */
  lemma {:induction false} Utf16LengthAppend(a: string, b: string)
    ensures Utf16Length(a + b) == Utf16Length(a) + Utf16Length(b)
    decreases |a|
  {
    if |a| == 0 {
      assert a + b == b;
    } else {
      assert (a + b)[0] == a[0];
      assert (a + b)[1..] == a[1..] + b;
      Utf16LengthAppend(a[1..], b);
    }
  }

  /** Trimming a trimmed string changes nothing. */
  lemma TrimIdempotent(s: string)
    ensures Trim(Trim(s)) == Trim(s)
  {
    var r := Trim(s);
    if |r| > 0 {
      assert TrimStart(r) == 0;
      assert r[TrimStart(r)..] == r;
      assert TrimEnd(r) == |r|;
    }
  }

  /** A string with no trimmable character at either end is its own trim. */
  lemma TrimOfTrimmed(s: string)
    requires |s| > 0 ==> !IsTrimmable(s[0]) && !IsTrimmable(s[|s| - 1])
    ensures Trim(s) == s
  {
    if |s| > 0 {
      assert TrimStart(s) == 0;
      assert s[0..] == s;
      assert TrimEnd(s) == |s|;
    }
  }

  // ---------------------------------------------------------------------
  // ASCII case mapping

  function LowerChar(c: char): char {
    if 'A' <= c <= 'Z' then (c as int + 32) as char else c
  }

  function UpperChar(c: char): char {
    if 'a' <= c <= 'z' then (c as int - 32) as char else c
  }

  /** `String.toLowerCase` restricted to ASCII letters. */
  function ToLower(s: string): (r: string)
    ensures |r| == |s|
  {
    seq(|s|, k requires 0 <= k < |s| => LowerChar(s[k]))
  }

  /** `String.toUpperCase` restricted to ASCII letters. */
  function ToUpper(s: string): (r: string)
    ensures |r| == |s|
  {
    seq(|s|, k requires 0 <= k < |s| => UpperChar(s[k]))
  }

  /** `String.equalsIgnoreCase` restricted to ASCII letters. */
  predicate EqualsIgnoreCase(a: string, b: string) {
    ToLower(a) == ToLower(b)
  }

  /** Lower-casing a string that was upper-cased first loses no information beyond case. */
  lemma LowerOfUpper(s: string)
    ensures ToLower(ToUpper(s)) == ToLower(s)
  {
    forall k | 0 <= k < |s|
      ensures ToLower(ToUpper(s))[k] == ToLower(s)[k]
    {
      var c := s[k];
      if 'a' <= c <= 'z' {
        assert UpperChar(c) as int == c as int - 32;
      }
    }
  }

  /** Lower-casing is idempotent. */
  lemma LowerIdempotent(s: string)
    ensures ToLower(ToLower(s)) == ToLower(s)
  {
  }

  /** Two strings trimmable at the same positions have the same leading run. */
  lemma {:induction false} TrimStartOfSameShape(a: string, b: string)
    requires |a| == |b|
    requires forall k :: 0 <= k < |a| ==> (IsTrimmable(a[k]) <==> IsTrimmable(b[k]))
    ensures TrimStart(a) == TrimStart(b)
  {
    if |a| > 0 && IsTrimmable(a[0]) {
      TrimStartOfSameShape(a[1..], b[1..]);
    }
  }

  /** Two strings trimmable at the same positions have the same trailing run. */
  lemma {:induction false} TrimEndOfSameShape(a: string, b: string)
    requires |a| == |b|
    requires forall k :: 0 <= k < |a| ==> (IsTrimmable(a[k]) <==> IsTrimmable(b[k]))
    ensures TrimEnd(a) == TrimEnd(b)
  {
    if |a| > 0 && IsTrimmable(a[|a| - 1]) {
      TrimEndOfSameShape(a[..|a| - 1], b[..|b| - 1]);
    }
  }

  /**
   * Case mapping never turns a trimmable character into a kept one or the
   * reverse, so `trim` cuts two such strings at the same places.
   */
  lemma TrimOfSameShape(a: string, b: string)
    requires |a| == |b|
    requires forall k :: 0 <= k < |a| ==> (IsTrimmable(a[k]) <==> IsTrimmable(b[k]))
    ensures TrimStart(a) == TrimStart(b)
    ensures |Trim(a)| == |Trim(b)|
  {
    TrimStartOfSameShape(a, b);
    var i := TrimStart(a);
    TrimEndOfSameShape(a[i..], b[i..]);
  }

  lemma UpperKeepsShape(s: string)
    ensures forall k :: 0 <= k < |s| ==> (IsTrimmable(s[k]) <==> IsTrimmable(ToUpper(s)[k]))
  {
    forall k | 0 <= k < |s|
      ensures IsTrimmable(s[k]) <==> IsTrimmable(ToUpper(s)[k])
    {
      assert ToUpper(s)[k] == UpperChar(s[k]);
    }
  }

  lemma LowerKeepsShape(s: string)
    ensures forall k :: 0 <= k < |s| ==> (IsTrimmable(s[k]) <==> IsTrimmable(ToLower(s)[k]))
  {
    forall k | 0 <= k < |s|
      ensures IsTrimmable(s[k]) <==> IsTrimmable(ToLower(s)[k])
    {
      assert ToLower(s)[k] == LowerChar(s[k]);
    }
  }

  /** Case mapping works character by character, so it commutes with slicing. */
  lemma UpperOfSlice(s: string, i: nat, j: nat)
    requires i <= j <= |s|
    ensures ToUpper(s)[i..j] == ToUpper(s[i..j])
  {
    forall k | 0 <= k < j - i
      ensures ToUpper(s)[i..j][k] == ToUpper(s[i..j])[k]
    {
    }
  }

  lemma LowerOfSlice(s: string, i: nat, j: nat)
    requires i <= j <= |s|
    ensures ToLower(s)[i..j] == ToLower(s[i..j])
  {
    forall k | 0 <= k < j - i
      ensures ToLower(s)[i..j][k] == ToLower(s[i..j])[k]
    {
    }
  }

  /** Upper-casing commutes with `trim`. */
  lemma TrimOfUpper(s: string)
    ensures Trim(ToUpper(s)) == ToUpper(Trim(s))
  {
    var u := ToUpper(s);
    var i, n := TrimStart(s), |Trim(s)|;
    assert TrimStart(u) == i && |Trim(u)| == n by {
      UpperKeepsShape(s);
      TrimOfSameShape(s, u);
    }
    UpperOfSlice(s, i, i + n);
  }

  /** Lower-casing commutes with `trim`. */
  lemma TrimOfLower(s: string)
    ensures Trim(ToLower(s)) == ToLower(Trim(s))
  {
    var l := ToLower(s);
    var i, n := TrimStart(s), |Trim(s)|;
    assert TrimStart(l) == i && |Trim(l)| == n by {
      LowerKeepsShape(s);
      TrimOfSameShape(s, l);
    }
    LowerOfSlice(s, i, i + n);
  }

  // ---------------------------------------------------------------------
  // Decimal formatting, as `Integer.toString` / `String.format("%d")`

  predicate IsDigit(c: char) {
    '0' <= c <= '9'
  }

  function DigitChar(d: nat): (c: char)
    requires d < 10
    ensures IsDigit(c) && c as int - '0' as int == d
  {
    (d + '0' as int) as char
  }

  /** Decimal digits of `n`, without leading zeros. */
  function NatToDecimal(n: nat): (r: string)
    ensures |r| > 0
    ensures forall k :: 0 <= k < |r| ==> IsDigit(r[k])
    ensures |r| > 1 ==> r[0] != '0'
    decreases n
  {
    if n < 10 then [DigitChar(n)] else NatToDecimal(n / 10) + [DigitChar(n % 10)]
  }

  /** Decimal form of an `int`, with a leading '-' when negative. */
  function IntToDecimal(n: int): (r: string)
    ensures n >= 0 ==> r == NatToDecimal(n)
    ensures n < 0 ==> r == "-" + NatToDecimal(-n)
  {
    if n < 0 then "-" + NatToDecimal(-n) else NatToDecimal(n)
  }

  /** The number a string of decimal digits denotes. */
  function DecimalValue(s: string): nat
    requires forall k :: 0 <= k < |s| ==> IsDigit(s[k])
  {
    if |s| == 0 then 0
    else
      assert IsDigit(s[|s| - 1]);
      DecimalValue(s[..|s| - 1]) * 10 + (s[|s| - 1] as int - '0' as int)
  }

  /** Reading back the digits `NatToDecimal` writes gives the number. */
  lemma {:induction false} DecimalRoundTrip(n: nat)
    ensures DecimalValue(NatToDecimal(n)) == n
    decreases n
  {
    if n >= 10 {
      DecimalRoundTrip(n / 10);
      var r := NatToDecimal(n);
      assert r[..|r| - 1] == NatToDecimal(n / 10);
    }
  }
}

=== FILE: validator.dfy ===
/**
 * The input rules of the quiz maker: length and range checks on question
 * and quiz fields, option lists, whole-question and whole-quiz validation,
 * True/False answer tokens, and input sanitising. Each rule comes in a
 * boolean form and a message form; a message form yields null for valid
 * input and otherwise the first problem found.
 */
module Validator {
  import opened JavaLang
  import opened Text
  import opened Questions
  import opened Quizzes

  const MinQuestionLength: int := 5
  const MaxQuestionLength: int := 500
  const MinAnswerLength: int := 1
  const MaxAnswerLength: int := 200
  const MinMarks: int := 1
  const MaxMarks: int := 100
  const MinOptions: int := 2
  const MaxOptions: int := 10
  const MinTimeLimit: int := 0
  const MaxTimeLimit: int := 300
  const MinTitleLength: int := 3
  const MaxTitleLength: int := 100

  /** The messages the message forms return, one constructor per message text. */
  datatype Problem =
    | QuestionTextEmpty | QuestionTextTooShort | QuestionTextTooLong
    | AnswerEmpty | AnswerTooLong
    | MarksOutOfRange
    | OptionsEmpty | TooFewOptions | TooManyOptions
    | OptionEmpty(number: int)
    | DuplicateOption(option: string)
    | AnswerNotInOptions
    | QuestionNull
    | TitleEmpty | TitleTooShort | TitleTooLong
    | QuizHasNoQuestions
    | TimeLimitOutOfRange
    | PercentageOutOfRange
    | QuizNull
    | InQuestion(number: int, problem: Problem)
    | NotTrueOrFalse

  // ---------------------------------------------------------------------
  // Basic checks

  /** `isNotEmpty`: non-null, and something other than trimmable characters. */
  predicate IsNotEmpty(s: Nullable<string>) {
    s.NonNull? && !IsBlank(s.value)
  }

  /** `isValidLength`: non-empty, with trimmed length in [min, max], counted in UTF-16 units. */
  predicate IsValidLength(s: Nullable<string>, min: int, max: int) {
    IsNotEmpty(s) && min <= Utf16Length(Trim(s.value)) <= max
  }

  predicate IsInRange(value: int, min: int, max: int) {
    min <= value <= max
  }

  /** A string is non-empty exactly when it holds a character above U+0020. */
  lemma IsNotEmptyMeansVisibleCharacter(s: string)
    ensures IsNotEmpty(NonNull(s)) <==> exists k :: 0 <= k < |s| && !IsTrimmable(s[k])
    ensures IsNotEmpty(NonNull(s)) ==> |Trim(s)| >= 1
  {
  }

  /** The message form for a non-empty trimmed length in [min, max]. */
  function LengthProblem(s: Nullable<string>, min: int, max: int,
                         empty: Problem, short: Problem, long: Problem): (r: Nullable<Problem>)
    ensures r.Null? <==> IsValidLength(s, min, max)
    ensures r == NonNull(empty) || r == NonNull(short) || r == NonNull(long) || r.Null?
    ensures !IsNotEmpty(s) ==> r == NonNull(empty)
  {
    if !IsNotEmpty(s) then NonNull(empty)
    else if Utf16Length(Trim(s.value)) < min then NonNull(short)
    else if Utf16Length(Trim(s.value)) > max then NonNull(long)
    else Null
  }

  // ---------------------------------------------------------------------
  // Question fields

  predicate IsValidQuestionText(text: Nullable<string>) {
    IsValidLength(text, MinQuestionLength, MaxQuestionLength)
  }

  /**
   * `validateQuestionText`. The source's check for a closing '?' or '.'
   * returns null either way, so it imposes nothing.
   */
  function ValidateQuestionText(text: Nullable<string>): (r: Nullable<Problem>)
    ensures r.Null? <==> IsValidQuestionText(text)
    ensures r.NonNull? ==> r.value in {QuestionTextEmpty, QuestionTextTooShort, QuestionTextTooLong}
    ensures r == NonNull(QuestionTextEmpty) <==> !IsNotEmpty(text)
  {
    LengthProblem(text, MinQuestionLength, MaxQuestionLength, QuestionTextEmpty, QuestionTextTooShort, QuestionTextTooLong)
  }

  predicate IsValidAnswer(answer: Nullable<string>) {
    IsValidLength(answer, MinAnswerLength, MaxAnswerLength)
  }

  /** `validateAnswer` has no too-short message: a non-empty answer is at least one code unit. */
  function ValidateAnswer(answer: Nullable<string>): (r: Nullable<Problem>)
    ensures r.Null? <==> IsValidAnswer(answer)
    ensures r == NonNull(AnswerEmpty) <==> !IsNotEmpty(answer)
    ensures r.NonNull? ==> r.value in {AnswerEmpty, AnswerTooLong}
  {
    if !IsNotEmpty(answer) then NonNull(AnswerEmpty)
    else if Utf16Length(Trim(answer.value)) > MaxAnswerLength then NonNull(AnswerTooLong)
    else Null
  }

  predicate IsValidMarks(marks: int) {
    IsInRange(marks, MinMarks, MaxMarks)
  }

  function ValidateMarks(marks: int): (r: Nullable<Problem>)
    ensures r.Null? <==> IsValidMarks(marks)
    ensures r.NonNull? ==> r.value == MarksOutOfRange
  {
    if !IsInRange(marks, MinMarks, MaxMarks) then NonNull(MarksOutOfRange) else Null
  }

  // ---------------------------------------------------------------------
  // Option lists

  /** Two options clash when their trimmed forms are equal ignoring case. */
  predicate SameOption(a: string, b: string) {
    EqualsIgnoreCase(Trim(a), Trim(b))
  }

  /** Option `k` clashes with some later option. */
  predicate HasLaterTwin(options: seq<string>, k: int)
    requires 0 <= k < |options|
  {
    exists j :: k < j < |options| && SameOption(options[k], options[j])
  }

  /** No two options clash. */
  predicate Distinct(options: seq<string>) {
    forall i, j :: 0 <= i < j < |options| ==> !SameOption(options[i], options[j])
  }

  /** The first index at or after `from` whose option is blank. */
  function FirstBlank(options: seq<string>, from: nat): (r: Nullable<nat>)
    requires from <= |options|
    ensures r.NonNull? ==> from <= r.value < |options| && !IsNotEmpty(NonNull(options[r.value]))
    ensures r.NonNull? ==> forall k :: from <= k < r.value ==> IsNotEmpty(NonNull(options[k]))
    ensures r.Null? ==> forall k :: from <= k < |options| ==> IsNotEmpty(NonNull(options[k]))
    decreases |options| - from
  {
    if from == |options| then Null
    else if !IsNotEmpty(NonNull(options[from])) then NonNull(from)
    else FirstBlank(options, from + 1)
  }

  /** The outer loop of the duplicate search: the first index at or after `from` with a later twin. */
  function FirstDuplicate(options: seq<string>, from: nat): (r: Nullable<nat>)
    requires from <= |options|
    ensures r.NonNull? ==> from <= r.value < |options| && HasLaterTwin(options, r.value)
    ensures r.NonNull? ==> forall k :: from <= k < r.value ==> !HasLaterTwin(options, k)
    ensures r.Null? ==> forall k :: from <= k < |options| ==> !HasLaterTwin(options, k)
    decreases |options| - from
  {
    if from == |options| then Null
    else if HasLaterTwin(options, from) then NonNull(from)
    else FirstDuplicate(options, from + 1)
  }

  /** The duplicate search finds nothing exactly when no two options clash. */
  lemma NoDuplicateIffDistinct(options: seq<string>)
    ensures FirstDuplicate(options, 0).Null? <==> Distinct(options)
  {
    if FirstDuplicate(options, 0).Null? {
      forall i, j | 0 <= i < j < |options|
        ensures !SameOption(options[i], options[j])
      {
        assert !HasLaterTwin(options, i);
      }
    } else {
      var k := FirstDuplicate(options, 0).value;
      var j :| k < j < |options| && SameOption(options[k], options[j]);
    }
  }

  /** `isValidOptions`: 2 to 10 options, none blank, no two alike. */
  predicate IsValidOptions(options: Nullable<seq<string>>) {
    && options.NonNull?
    && MinOptions <= |options.value| <= MaxOptions
    && (forall k :: 0 <= k < |options.value| ==> IsNotEmpty(NonNull(options.value[k])))
    && Distinct(options.value)
  }

  /**
   * `validateOptions`: the first failing check, naming the first blank
   * option (1-based) or the first option that has a later duplicate.
   */
  function ValidateOptions(options: Nullable<seq<string>>): (r: Nullable<Problem>)
    ensures r.Null? <==> IsValidOptions(options)
    ensures r == NonNull(OptionsEmpty) <==> options.Null? || |options.value| == 0
    ensures r.NonNull? && r.value.OptionEmpty? ==>
      && options.NonNull?
      && 1 <= r.value.number <= |options.value|
      && !IsNotEmpty(NonNull(options.value[r.value.number - 1]))
      && forall k :: 0 <= k < r.value.number - 1 ==> IsNotEmpty(NonNull(options.value[k]))
    ensures r.NonNull? && r.value.DuplicateOption? ==>
      && options.NonNull?
      && exists i, j :: (0 <= i < j < |options.value| && options.value[i] == r.value.option
                         && SameOption(options.value[i], options.value[j]))
  {
    if options.Null? || |options.value| == 0 then NonNull(OptionsEmpty)
    else
      var os := options.value;
      if |os| < MinOptions then NonNull(TooFewOptions)
      else if |os| > MaxOptions then NonNull(TooManyOptions)
      else
        NoDuplicateIffDistinct(os);
        var blank := FirstBlank(os, 0);
        if blank.NonNull? then NonNull(OptionEmpty(blank.value + 1))
        else
          var dup := FirstDuplicate(os, 0);
          if dup.NonNull? then NonNull(DuplicateOption(os[dup.value])) else Null
  }

  /** The loop of `isAnswerInOptions`: some option at or after `from` matches. */
  function ContainsOption(options: seq<string>, answer: string, from: nat): (found: bool)
    requires from <= |options|
    ensures found <==> exists k :: from <= k < |options| && SameOption(options[k], answer)
    decreases |options| - from
  {
    from < |options| && (SameOption(options[from], answer) || ContainsOption(options, answer, from + 1))
  }

  /** `isAnswerInOptions`: a non-empty answer matching some option, trimmed and ignoring case. */
  function IsAnswerInOptions(answer: Nullable<string>, options: Nullable<seq<string>>): (found: bool)
    ensures found <==>
      && IsNotEmpty(answer) && options.NonNull?
      && exists k :: 0 <= k < |options.value| && SameOption(options.value[k], answer.value)
  {
    IsNotEmpty(answer) && options.NonNull? && ContainsOption(options.value, answer.value, 0)
  }

  /** An answer that is literally one of the options is found. */
  lemma ExactOptionIsFound(answer: string, options: seq<string>)
    requires answer in options && IsNotEmpty(NonNull(answer))
    ensures IsAnswerInOptions(NonNull(answer), NonNull(options))
  {
    var k :| 0 <= k < |options| && options[k] == answer;
    assert SameOption(options[k], answer);
  }

  // ---------------------------------------------------------------------
  // Whole questions

  /** The problem, if any, reported as a one-element list. */
  function AsList(p: Nullable<Problem>): (r: seq<Problem>)
    ensures p.Null? ==> r == []
    ensures p.NonNull? ==> r == [p.value]
  {
    if p.Null? then [] else [p.value]
  }

  /** The extra Multiple-Choice checks: options first, then membership of the answer. */
  function ChoiceProblems(q: Question): (r: seq<Problem>)
    ensures r == [] <==>
      || QuestionType(q) != "Multiple Choice"
      || (IsValidOptions(NonNull(Options(q))) && IsAnswerInOptions(q.correctAnswer, NonNull(Options(q))))
    ensures |r| <= 1
  {
    if QuestionType(q) == "Multiple Choice" then
      var optionsProblem := ValidateOptions(NonNull(Options(q)));
      if optionsProblem.NonNull? then [optionsProblem.value]
      else if !IsAnswerInOptions(q.correctAnswer, NonNull(Options(q))) then [AnswerNotInOptions]
      else []
    else []
  }

  /** `validateQuestion`: text, marks and answer problems in that order, then the choice checks. */
  function ValidateQuestion(question: Nullable<Question>): (errors: seq<Problem>)
    ensures question.Null? ==> errors == [QuestionNull]
    ensures |errors| <= 4
  {
    if question.Null? then [QuestionNull]
    else
      var q := question.value;
      AsList(ValidateQuestionText(q.text)) + AsList(ValidateMarks(q.marks))
      + AsList(ValidateAnswer(q.correctAnswer)) + ChoiceProblems(q)
  }

  /** What `validateQuestion` accepts, as a conjunction of the boolean rules. */
  predicate PassesValidation(q: Question) {
    && IsValidQuestionText(q.text)
    && IsValidMarks(q.marks)
    && IsValidAnswer(q.correctAnswer)
    && (q.MultipleChoice? ==> IsValidOptions(NonNull(q.options)) && IsAnswerInOptions(q.correctAnswer, NonNull(q.options)))
  }

  /** The problem list is empty exactly when every boolean rule holds. */
  lemma ValidateQuestionEmptyIff(q: Question)
    ensures ValidateQuestion(NonNull(q)) == [] <==> PassesValidation(q)
  {
    QuestionTypeIdentifiesVariant(q);
  }

  /**
   * Apart from the choice rule, passing validation is stricter than
   * `isValid`: for a question whose stored True/False answer is normalised
   * (as the three-argument constructor leaves it), validation implies
   * validity unless it is Multiple-Choice.
   */
  lemma ValidatedIsValid(q: Question)
    requires StoresNormalizedAnswer(q) && !q.MultipleChoice?
    ensures PassesValidation(q) ==> IsValid(q)
  {
  }

  /** A validated Multiple-Choice question is valid once its answer is literally an option. */
  lemma ValidatedChoiceIsValid(q: Question)
    requires q.MultipleChoice? && q.correctAnswer.NonNull? && q.correctAnswer.value in q.options
    ensures PassesValidation(q) ==> IsValid(q)
  {
  }

  /** A Multiple-Choice question whose answer matches an option only up to case. */
  function MismatchedChoice(): Question {
    MultipleChoice(NonNull("Pick one"), 1, NonNull("yes"), ["YES", "NO"])
  }

  lemma MismatchedChoiceOptionsValid()
    ensures IsValidOptions(NonNull(["YES", "NO"]))
  {
    assert !IsTrimmable("YES"[0]) && !IsTrimmable("NO"[0]);
    assert !SameOption("YES", "NO") by {
      TrimOfTrimmed("YES");
      TrimOfTrimmed("NO");
      assert ToLower("YES")[0] != ToLower("NO")[0];
    }
  }

  lemma MismatchedChoiceAnswerFound()
    ensures IsAnswerInOptions(NonNull("yes"), NonNull(["YES", "NO"]))
  {
    assert !IsTrimmable("yes"[0]);
    assert SameOption("YES", "yes") by {
      TrimOfTrimmed("YES");
      TrimOfTrimmed("yes");
      assert ToLower("YES") == "yes";
    }
  }

  lemma MismatchedChoiceTextValid()
    ensures IsValidQuestionText(NonNull("Pick one"))
  {
    assert !IsTrimmable("Pick one"[0]);
    TrimOfTrimmed("Pick one");
  }

  lemma MismatchedChoiceAnswerValid()
    ensures IsValidAnswer(NonNull("yes"))
  {
    assert !IsTrimmable("yes"[0]);
    TrimOfTrimmed("yes");
  }

  lemma MismatchedChoicePasses()
    ensures PassesValidation(MismatchedChoice())
  {
    MismatchedChoiceTextValid();
    MismatchedChoiceAnswerValid();
    MismatchedChoiceOptionsValid();
    MismatchedChoiceAnswerFound();
  }

  lemma MismatchedChoiceInvalid()
    ensures !IsValid(MismatchedChoice())
  {
    assert "yes" !in ["YES", "NO"] by {
      assert "yes"[0] != "YES"[0];
      assert "yes"[0] != "NO"[0];
    }
  }

  /**
   * The validator matches the answer against the options ignoring case,
   * `isValid` requires an exact entry: a question can pass the one and fail
   * the other.
   */
  lemma ChoiceMatchingDiffers()
    ensures var q := MultipleChoice(NonNull("Pick one"), 1, NonNull("yes"), ["YES", "NO"]);
      PassesValidation(q) && !IsValid(q)
  {
    MismatchedChoicePasses();
    MismatchedChoiceInvalid();
  }

  // ---------------------------------------------------------------------
  // Quiz fields and whole quizzes

  predicate IsValidQuizTitle(title: Nullable<string>) {
    IsValidLength(title, MinTitleLength, MaxTitleLength)
  }

  function ValidateQuizTitle(title: Nullable<string>): (r: Nullable<Problem>)
    ensures r.Null? <==> IsValidQuizTitle(title)
    ensures r == NonNull(TitleEmpty) <==> !IsNotEmpty(title)
    ensures r.NonNull? ==> r.value in {TitleEmpty, TitleTooShort, TitleTooLong}
  {
    LengthProblem(title, MinTitleLength, MaxTitleLength, TitleEmpty, TitleTooShort, TitleTooLong)
  }

  /**
   * Title lengths count UTF-16 code units: one emoji (U+1F600, a surrogate
   * pair) is two units and too short, and two emoji make a valid title.
   */
  lemma TitleLengthCountsCodeUnits()
    ensures ValidateQuizTitle(NonNull("\U{1F600}")) == NonNull(TitleTooShort)
    ensures ValidateQuizTitle(NonNull("\U{1F600}\U{1F600}")) == Null
  {
    OneEmojiLength();
    TwoEmojiLength();
  }

  /** U+1F600 is kept by `trim` and is a surrogate pair. */
  lemma OneEmojiLength()
    ensures Trim("\U{1F600}") == "\U{1F600}" && Utf16Length("\U{1F600}") == 2
  {
    var e := "\U{1F600}";
    assert !IsTrimmable(e[0]);
    assert e[1..] == [];
  }

  /** Two of them are four code units. */
  lemma TwoEmojiLength()
    ensures Trim("\U{1F600}\U{1F600}") == "\U{1F600}\U{1F600}" && Utf16Length("\U{1F600}\U{1F600}") == 4
  {
    var e, ee := "\U{1F600}", "\U{1F600}\U{1F600}";
    assert !IsTrimmable(ee[0]);
    TrimOfTrimmed(ee);
    OneEmojiLength();
    assert ee == e + e;
    Utf16LengthAppend(e, e);
  }

  predicate IsValidTimeLimit(minutes: int) {
    IsInRange(minutes, MinTimeLimit, MaxTimeLimit)
  }

  function ValidateTimeLimit(minutes: int): (r: Nullable<Problem>)
    ensures r.Null? <==> IsValidTimeLimit(minutes)
    ensures r.NonNull? ==> r.value == TimeLimitOutOfRange
  {
    if !IsInRange(minutes, MinTimeLimit, MaxTimeLimit) then NonNull(TimeLimitOutOfRange) else Null
  }

  predicate IsValidPassingPercentage(percentage: int) {
    IsInRange(percentage, 0, 100)
  }

  function ValidatePassingPercentage(percentage: int): (r: Nullable<Problem>)
    ensures r.Null? <==> IsValidPassingPercentage(percentage)
    ensures r.NonNull? ==> r.value == PercentageOutOfRange
  {
    if !IsInRange(percentage, 0, 100) then NonNull(PercentageOutOfRange) else Null
  }

  /** The problems of question `n` (1-based), each prefixed with its number. */
  function Numbered(n: int, problems: seq<Problem>): (r: seq<Problem>)
    ensures |r| == |problems|
    ensures forall k :: 0 <= k < |r| ==> r[k] == InQuestion(n, problems[k])
  {
    seq(|problems|, k requires 0 <= k < |problems| => InQuestion(n, problems[k]))
  }

  /** The `validateQuestion` list of every question, in order. */
  function ProblemLists(qs: seq<Question>): (lists: seq<seq<Problem>>)
    ensures |lists| == |qs|
    ensures forall i :: 0 <= i < |qs| ==> lists[i] == ValidateQuestion(NonNull(qs[i]))
  {
    seq(|qs|, i requires 0 <= i < |qs| => ValidateQuestion(NonNull(qs[i])))
  }

  /** The per-question loop of `validateQuiz` over the first `k` problem lists. */
  function QuestionProblems(lists: seq<seq<Problem>>, k: nat): (errors: seq<Problem>)
    requires k <= |lists|
    ensures errors == [] <==> forall i :: 0 <= i < k ==> lists[i] == []
    ensures forall e :: e in errors ==>
      && e.InQuestion? && 1 <= e.number <= k
      && e.problem in lists[e.number - 1]
    decreases k
  {
    if k == 0 then []
    else
      var here := Numbered(k, lists[k - 1]);
      assert forall e :: e in here ==> e.InQuestion? && e.number == k && e.problem in lists[k - 1];
      QuestionProblems(lists, k - 1) + here
  }

  /** Every problem of every question is reported, under its question's number. */
  lemma {:induction false} QuestionProblemsComplete(lists: seq<seq<Problem>>, k: nat, n: int, p: Problem)
    requires k <= |lists| && 1 <= n <= k && p in lists[n - 1]
    ensures InQuestion(n, p) in QuestionProblems(lists, k)
    decreases k
  {
    var here := Numbered(k, lists[k - 1]);
    if n == k {
      var i :| 0 <= i < |lists[k - 1]| && lists[k - 1][i] == p;
      assert here[i] == InQuestion(n, p);
    } else {
      QuestionProblemsComplete(lists, k - 1, n, p);
    }
    assert QuestionProblems(lists, k) == QuestionProblems(lists, k - 1) + here;
  }

  /** The quiz-level checks of `validateQuiz`: title, question count, time limit, percentage. */
  function QuizFieldProblems(quiz: Quiz): (errors: seq<Problem>)
    ensures errors == [] <==>
      && IsValidQuizTitle(quiz.title)
      && |quiz.questions| > 0
      && IsValidTimeLimit(quiz.timeLimit)
      && IsValidPassingPercentage(quiz.passingPercentage)
    ensures forall e :: e in errors ==> !e.InQuestion?
  {
    var title := ValidateQuizTitle(quiz.title);
    var time := ValidateTimeLimit(quiz.timeLimit);
    var percentage := ValidatePassingPercentage(quiz.passingPercentage);
    AsList(title) + (if |quiz.questions| == 0 then [QuizHasNoQuestions] else []) + AsList(time) + AsList(percentage)
  }

  /** `validateQuiz`: the quiz-level problems, then each question's problems under its number. */
  function ValidateQuiz(quiz: Nullable<Quiz>): (errors: seq<Problem>)
    ensures quiz.Null? ==> errors == [QuizNull]
  {
    if quiz.Null? then [QuizNull]
    else QuizFieldProblems(quiz.value) + QuestionProblems(ProblemLists(quiz.value.questions), |quiz.value.questions|)
  }

  /**
   * The problem list of a quiz is empty exactly when its title, time limit
   * and percentage are valid, it has a question, and every question passes
   * `validateQuestion`.
   */
  lemma ValidateQuizEmptyIff(quiz: Quiz)
    ensures ValidateQuiz(NonNull(quiz)) == [] <==>
      && IsValidQuizTitle(quiz.title)
      && |quiz.questions| > 0
      && IsValidTimeLimit(quiz.timeLimit)
      && IsValidPassingPercentage(quiz.passingPercentage)
      && forall i :: 0 <= i < |quiz.questions| ==> PassesValidation(quiz.questions[i])
  {
    var qs := quiz.questions;
    var fields := QuizFieldProblems(quiz);
    var tail := QuestionProblems(ProblemLists(qs), |qs|);
    assert ValidateQuiz(NonNull(quiz)) == [] <==> fields == [] && tail == [] by {
      assert ValidateQuiz(NonNull(quiz)) == fields + tail;
      assert |fields + tail| == |fields| + |tail|;
    }
    QuestionProblemsEmptyIff(qs);
  }

  /** No question reports a problem exactly when every question passes validation. */
  lemma QuestionProblemsEmptyIff(qs: seq<Question>)
    ensures QuestionProblems(ProblemLists(qs), |qs|) == [] <==>
      forall i :: 0 <= i < |qs| ==> PassesValidation(qs[i])
  {
    var lists := ProblemLists(qs);
    if QuestionProblems(lists, |qs|) == [] {
      forall i | 0 <= i < |qs|
        ensures PassesValidation(qs[i])
      {
        ValidateQuestionEmptyIff(qs[i]);
      }
    } else {
      var i :| 0 <= i < |qs| && lists[i] != [];
      ValidateQuestionEmptyIff(qs[i]);
    }
  }

  /** A numbered problem is in the per-question list exactly when its question reported it. */
  lemma QuestionProblemsMembership(lists: seq<seq<Problem>>, k: nat, n: int, p: Problem)
    requires k <= |lists|
    ensures InQuestion(n, p) in QuestionProblems(lists, k) <==> 1 <= n <= k && p in lists[n - 1]
  {
    if 1 <= n <= k && p in lists[n - 1] {
      QuestionProblemsComplete(lists, k, n, p);
    }
  }

  /** Each question problem of the quiz list names a question and one of its problems, and all are listed. */
  lemma ValidateQuizNamesQuestionProblems(quiz: Quiz, n: int, p: Problem)
    ensures InQuestion(n, p) in ValidateQuiz(NonNull(quiz)) <==>
      1 <= n <= |quiz.questions| && p in ValidateQuestion(NonNull(quiz.questions[n - 1]))
  {
    var qs := quiz.questions;
    var lists := ProblemLists(qs);
    var fields := QuizFieldProblems(quiz);
    var tail := QuestionProblems(lists, |qs|);
    var e := InQuestion(n, p);
    assert e in ValidateQuiz(NonNull(quiz)) <==> e in tail by {
      assert ValidateQuiz(NonNull(quiz)) == fields + tail;
      assert e !in fields;
    }
    assert e in tail <==> 1 <= n <= |qs| && p in lists[n - 1] by {
      QuestionProblemsMembership(lists, |qs|, n, p);
    }
  }

  // ---------------------------------------------------------------------
  // True/False answers

  /** `isValidTrueFalseAnswer`: one of six tokens once trimmed and lower-cased. */
  predicate IsValidTrueFalseAnswer(answer: Nullable<string>) {
    IsNotEmpty(answer) && ToLower(Trim(answer.value)) in {"true", "false", "t", "f", "1", "0"}
  }

  function ValidateTrueFalseAnswer(answer: Nullable<string>): (r: Nullable<Problem>)
    ensures r.Null? <==> IsValidTrueFalseAnswer(answer)
    ensures r == NonNull(AnswerEmpty) <==> !IsNotEmpty(answer)
    ensures r.NonNull? ==> r.value in {AnswerEmpty, NotTrueOrFalse}
  {
    if !IsNotEmpty(answer) then NonNull(AnswerEmpty)
    else if !IsValidTrueFalseAnswer(answer) then NonNull(NotTrueOrFalse)
    else Null
  }

  /**
   * The question's normaliser reads the accepted tokens as the validator
   * means them: "true", "t", "1" as True and "false", "f", "0" as False.
   * Every other non-null string, the blank one included, also normalises
   * to False, so such an answer is graded as the answer False.
   */
  lemma TrueFalseTokensAgree(answer: string)
    ensures IsValidTrueFalseAnswer(NonNull(answer)) ==>
      (NormalizeAnswer(NonNull(answer)) == TrueLabel <==> ToLower(Trim(answer)) in {"true", "t", "1"})
    ensures !IsValidTrueFalseAnswer(NonNull(answer)) ==> NormalizeAnswer(NonNull(answer)) == FalseLabel
  {
    if !IsNotEmpty(NonNull(answer)) {
      assert |ToLower(Trim(answer))| == 0;
    }
  }

  /** An unrecognised answer to a True/False question whose answer is False is graded correct. */
  lemma UnrecognisedAnswerGradesAsFalse(text: Nullable<string>, marks: int, given: string)
    requires !IsValidTrueFalseAnswer(NonNull(given))
    ensures CheckAnswer(NewTrueFalse(text, marks, NonNull("False")), NonNull(given))
  {
    TrueFalseTokensAgree(given);
    NormalizeFixesLabels(FalseLabel);
  }

  // ---------------------------------------------------------------------
  // Whitespace

  /** `isWhitespaceOnly`: non-null, non-empty, and nothing but trimmable characters. */
  predicate IsWhitespaceOnly(s: Nullable<string>) {
    s.NonNull? && IsBlank(s.value) && |s.value| > 0
  }

  /** Null, the empty string, whitespace-only and non-empty split all inputs four ways. */
  lemma StringsSplitFourWays(s: Nullable<string>)
    ensures IsWhitespaceOnly(s) ==> !IsNotEmpty(s) && s.NonNull?
    ensures IsNotEmpty(s) ==> !IsWhitespaceOnly(s)
    ensures s.NonNull? ==> (|s.value| == 0 || IsWhitespaceOnly(s) || IsNotEmpty(s))
  {
  }

  /** The number of leading regex-space characters of `s`. */
  function SpaceRun(s: string): (n: nat)
    ensures n <= |s|
    ensures forall k :: 0 <= k < n ==> IsRegexSpace(s[k])
    ensures n < |s| ==> !IsRegexSpace(s[n])
  {
    if |s| == 0 || !IsRegexSpace(s[0]) then 0 else 1 + SpaceRun(s[1..])
  }

  /** `replaceAll("\\s+", " ")`: every maximal run of regex-space characters becomes one ' '. */
  function CollapseSpaces(s: string): (r: string)
    ensures |r| <= |s|
    decreases |s|
  {
    if |s| == 0 then []
    else if IsRegexSpace(s[0]) then [' '] + CollapseSpaces(s[SpaceRun(s)..])
    else [s[0]] + CollapseSpaces(s[1..])
  }

  /** The regex-space characters of `s` that are followed by another one. */
  predicate NoDoubleSpace(s: string) {
    forall k :: 0 <= k < |s| - 1 ==> !(IsRegexSpace(s[k]) && IsRegexSpace(s[k + 1]))
  }

  /** The only regex-space character left is ' '. */
  predicate OnlyPlainSpaces(s: string) {
    forall k :: 0 <= k < |s| ==> IsRegexSpace(s[k]) ==> s[k] == ' '
  }

  /** `s` without its regex-space characters. */
  function Visible(s: string): (r: string)
    ensures |r| <= |s|
  {
    if |s| == 0 then [] else (if IsRegexSpace(s[0]) then [] else [s[0]]) + Visible(s[1..])
  }

  lemma {:induction false} VisibleOfSpaces(s: string, n: nat)
    requires n <= |s| && forall k :: 0 <= k < n ==> IsRegexSpace(s[k])
    ensures Visible(s) == Visible(s[n..])
    decreases n
  {
    if n > 0 {
      VisibleOfSpaces(s[1..], n - 1);
      assert s[1..][n - 1..] == s[n..];
    }
  }

  /**
   * Collapsing keeps every other character, in order; the first character
   * is kept or becomes ' '; the result has no two spaces in a row and no
   * space but ' '.
   */
  lemma {:induction false} CollapseSpacesFacts(s: string)
    ensures Visible(CollapseSpaces(s)) == Visible(s)
    ensures NoDoubleSpace(CollapseSpaces(s)) && OnlyPlainSpaces(CollapseSpaces(s))
    ensures |s| > 0 ==>
      && |CollapseSpaces(s)| > 0
      && CollapseSpaces(s)[0] == (if IsRegexSpace(s[0]) then ' ' else s[0])
    decreases |s|
  {
    if |s| > 0 {
      var r := CollapseSpaces(s);
      if IsRegexSpace(s[0]) {
        var n := SpaceRun(s);
        var t := s[n..];
        CollapseSpacesFacts(t);
        VisibleOfSpaces(s, n);
        assert r == [' '] + CollapseSpaces(t);
        assert Visible(r) == Visible(CollapseSpaces(t));
        assert |t| > 0 ==> !IsRegexSpace(t[0]);
      } else {
        CollapseSpacesFacts(s[1..]);
        assert r == [s[0]] + CollapseSpaces(s[1..]);
        assert r[1..] == CollapseSpaces(s[1..]);
      }
    }
  }

  /** A string whose last character is not a space keeps that last character. */
  lemma {:induction false} CollapseSpacesLast(s: string)
    ensures |s| > 0 && !IsRegexSpace(s[|s| - 1]) ==>
      |CollapseSpaces(s)| > 0 && CollapseSpaces(s)[|CollapseSpaces(s)| - 1] == s[|s| - 1]
    decreases |s|
  {
    if |s| == 0 || IsRegexSpace(s[|s| - 1]) {
    } else if IsRegexSpace(s[0]) {
      var n := SpaceRun(s);
      CollapseSpacesLast(s[n..]);
      assert s[n..][|s[n..]| - 1] == s[|s| - 1];
    } else if |s| > 1 {
      CollapseSpacesLast(s[1..]);
    }
  }

  /** A string with no double spaces and no space but ' ' is already collapsed. */
  lemma {:induction false} CollapseSpacesOfCollapsed(s: string)
    requires NoDoubleSpace(s) && OnlyPlainSpaces(s)
    ensures CollapseSpaces(s) == s
    decreases |s|
  {
    if |s| > 0 {
      if IsRegexSpace(s[0]) {
        assert SpaceRun(s) == 1 by {
          if |s| > 1 { assert !IsRegexSpace(s[1]); }
        }
        CollapseSpacesOfCollapsed(s[1..]);
      } else {
        CollapseSpacesOfCollapsed(s[1..]);
      }
    }
  }

  /** `SpaceRun` is the one length whose prefix is all spaces and is not followed by a space. */
  lemma SpaceRunUnique(s: string, n: nat)
    requires n <= |s| && forall k :: 0 <= k < n ==> IsRegexSpace(s[k])
    requires n < |s| ==> !IsRegexSpace(s[n])
    ensures SpaceRun(s) == n
  {
  }

  /** A non-empty run of regex-space characters collapses to exactly one ' '. */
  lemma CollapseSpacesOfRun(s: string)
    requires |s| > 0 && forall k :: 0 <= k < |s| ==> IsRegexSpace(s[k])
    ensures CollapseSpaces(s) == " "
  {
    SpaceRunUnique(s, |s|);
    assert s[|s|..] == [];
  }

  /**
   * Collapsing works piece by piece: it distributes over any split that does
   * not cut a run of spaces in two. With `CollapseSpacesOfRun` and the
   * one-character case this fixes the result: each maximal run of spaces
   * becomes one ' ' and every other character stays where it was.
   */
  lemma {:induction false} CollapseSpacesSplit(x: string, y: string)
    requires |x| == 0 || |y| == 0 || !IsRegexSpace(x[|x| - 1]) || !IsRegexSpace(y[0])
    ensures CollapseSpaces(x + y) == CollapseSpaces(x) + CollapseSpaces(y)
    decreases |x|
  {
    if |x| == 0 {
      assert x + y == y;
    } else if !IsRegexSpace(x[0]) {
      assert (x + y)[1..] == x[1..] + y;
      CollapseSpacesSplit(x[1..], y);
    } else {
      var n := SpaceRun(x);
      if n < |x| {
        SpaceRunUnique(x + y, n);
        assert (x + y)[n..] == x[n..] + y;
        CollapseSpacesSplit(x[n..], y);
      } else {
        SpaceRunUnique(x + y, n);
        assert (x + y)[n..] == y;
        assert x[n..] == [];
      }
    }
  }

  /** Interior runs survive as single spaces: "a \t b" collapses to "a b". */
  lemma CollapseSpacesExample()
    ensures CollapseSpaces("a \t b") == "a b"
  {
    CollapseSpacesOfRun(" \t ");
    CollapseSpacesSplit(" \t ", "b");
    assert " \t " + "b" == " \t b";
    CollapseSpacesSplit("a", " \t b");
    assert "a" + " \t b" == "a \t b";
  }

  /**
   * `sanitizeInput`: null becomes "", otherwise the trimmed input with
   * each run of regex-space characters replaced by a single ' '.
   */
  function SanitizeInput(input: Nullable<string>): (r: string)
    ensures input.Null? ==> r == ""
    ensures |r| > 0 ==> !IsTrimmable(r[0]) && !IsTrimmable(r[|r| - 1])
    ensures NoDoubleSpace(r) && OnlyPlainSpaces(r)
    ensures input.NonNull? ==> Visible(r) == Visible(Trim(input.value))
    ensures input.NonNull? ==> (|r| == 0 <==> IsBlank(input.value))
  {
    if input.Null? then ""
    else
      var t := Trim(input.value);
      CollapseSpacesFacts(t);
      CollapseSpacesLast(t);
      CollapseSpaces(t)
  }

  /** Surrounding blanks go and the interior run stays as one space: "  a \t b " sanitises to "a b". */
  lemma SanitizeExample()
    ensures SanitizeInput(NonNull("  a \t b ")) == "a b"
  {
    var s := "  a \t b ";
    assert TrimStart(s) == 2;
    assert Trim(s) == "a \t b" by {
      assert |Trim(s)| == 5;
    }
    CollapseSpacesExample();
  }

  /** Sanitising a sanitised string changes nothing. */
  lemma SanitizeIdempotent(input: Nullable<string>)
    ensures SanitizeInput(NonNull(SanitizeInput(input))) == SanitizeInput(input)
  {
    var r := SanitizeInput(input);
    TrimOfTrimmed(r);
    CollapseSpacesOfCollapsed(r);
  }
}
